=== FILE: README.md ===
# seo-crawler core in Dafny

A Dafny model, with proofs, of the core of `seo-crawler`, a same-host web crawler written
in TypeScript. The crawler starts from a base URL. It fetches pages through a
concurrency limiter and stops claiming new pages once a page budget
(`maxPages`) is spent. From each page's HTML it extracts the first `h1`, the
first paragraph, the outgoing links and the image URLs. It can write the
result as a CSV report.

The model covers these parts:

- **`normalizeURL`.** A page's identity: hostname plus pathname, less one
  trailing `/`. This is module `Url`, in `url.dfy`.
- **`addPageVisit`.** The claim/budget gate, with the visited set, the stop
  flag and the budget. This is module `ClaimGate`, in `gate.dfy`.
- **The response filter of `getHTML`.** This is module `Fetch`, in
  `fetch.dfy`.
- **`crawlPage`.** Modelled as a transition system over an abstract site, in
  module `Engine` (`engine.dfy`):
  - `Visit` is the synchronous part before its first `await`, on `getHTML`.
  - `Settle` is everything after `getHTML` settles. That includes the
    synchronous part of every child visit started in the `Array.from`
    mapper.
  - The second `await`, on `Promise.all` (line 127), is the last statement.
    Nothing runs after it, so resuming from it changes no state and is not
    an event of the model.
  - `Run` applies any sequence of settle events, which covers every
    interleaving the event loop can choose.
- **The four extractors and `extractPageData`.** They work over the element
  tree the HTML parser produces. These are modules `Dom` (`dom.dfy`) and
  `Extract` (`extract.dfy`), with JavaScript's `trim`, `includes` and `join`
  in `Text` (`text.dfy`).
- **`csvEscape` and the layout of `writeCSVReport`.** The escaping is checked
  against a parser for the field grammar of section 2 of RFC 4180, with line
  feeds between records. These are modules `Csv` (`csv.dfy`) and `Report`
  (`report.dfy`).

`src/crawl.ts` is an earlier, line-for-line identical copy of `normalizeURL`,
the four extractors and `extractPageData` from `src/crawler/crawl.ts`, so one
model covers both files.

Behaviours of the code that the model keeps as written:

- An absolute `href` is not passed through unchanged: it goes through URL
  serialisation, for example `https://blog.boot.dev` becomes
  `https://blog.boot.dev/`. The model leaves resolution abstract and claims
  nothing about it.
- `normalizeURL` removes one trailing `/` whatever precedes it, so a path
  `//` becomes `/`.
- The crawl records at most `maxPages` pages, not exactly that many, even
  when enough pages are reachable. There are two reasons:
  - a claimed page whose HTML is empty, not HTML, or whose fetch fails or is
    aborted is never recorded;
  - the abort at budget exhaustion fails every fetch still in flight.

  The model proves the bound.
- `crawl()` does not wait for every descendant visit. The mapper returns
  `undefined`, so `Promise.all` waits for nothing, and `allTasks` is
  snapshotted once. The model states what holds after any prefix of the
  events, so it claims nothing about what `crawl()` has returned by a given
  time.

## Model

| member | source | states |
|---|---|---|
| `Url.Normalize` | src/crawler/crawl.ts:152-162 | The identity is a prefix of hostname + pathname and is exactly one character shorter when the path ends in `/`. |
| `Url.DropTrailingSlash` | src/crawler/crawl.ts:158-161 | With a trailing `/`, appending `/` to the result restores the path; without one, the path is unchanged. |
| `Url.IgnoresOtherComponents` | src/crawl.ts:3-13 | Scheme, port, query and fragment never affect the identity. |
| `Url.TrailingSlash` | src/crawler/crawl.ts:158-161 | Adding a `/` leaves the identity unchanged if and only if the path did not already end in `/`. |
| `Url.SamePage` | src/crawler/crawl.ts:152-162 | Two well-formed parsed URLs (a host without `/` and a path starting with `/`, as for `http` and `https`) have the same identity if and only if they have the same host and the same path up to one trailing `/`. |
| `Url.HostFromInput` | src/crawler/crawl.ts:153-155 | For an ASCII domain name, the parser's host is the typed host with ASCII letters lowercased, same length, and has no uppercase ASCII letter. |
| `Url.SameIdentity` | src/crawler/crawl.test.ts:12-38 | URLs whose typed text differs only in letter case, and whose paths are equal or differ by one trailing `/` added to a path without one, have the same identity. |
| `Url.BootDevExamples` | src/crawl.test.ts:4-30 | `https://blog.boot.dev/path`, `.../path/`, `https://BLOG.boot.dev/path` and `http://BLOG.boot.dev/path` all give `blog.boot.dev/path`. |
| `ClaimGate.AddPageVisit` | src/crawler/crawl.ts:27-45 | A claim succeeds if and only if the gate is not stopped, the identity is new and the budget is not full. A success adds exactly that identity. Only a new identity at a full budget trips the stop. A stopped gate refuses everything and changes nothing. The budget bound is preserved. |
| `ClaimGate.ClaimAllKeepsBudget` | src/crawler/crawl.ts:28-41 | After any sequence of claims the budget bound still holds, the stop flag never resets, and a stopped gate claims nothing and stays as it is. |
| `ClaimGate.ClaimAllClaimsOnce` | src/crawler/crawl.ts:32-43 | Over any sequence of claims, no identity is claimed twice or after being visited. The visited set grows by exactly the claimed identities, one per claim. |
| `ClaimGate.FreshGate` | src/crawler/crawl.ts:36-43 | From an empty visited set, no sequence of claims claims more than `maxPages` identities. |
| `Fetch.Accepts` | src/crawler/crawl.ts:67-76 | A response is accepted if and only if its status is at most 399 and a content type is present that contains `text/html`. |
| `Fetch.GetHtml` | src/crawler/crawl.ts:47-79 | `getHTML` fails exactly when `fetch` rejects or reading an accepted response's body rejects. It yields the body exactly for accepted responses whose body was read. A response that is not accepted gives an absent result, not an error, whether or not its body could have been read. |
| `Fetch.RejectedResponses` | src/crawler/crawl.ts:67-78 | Error statuses and missing or empty content types give an absent result; a 200 `text/html; charset=utf-8` response yields its body, and is an error when reading its body fails. |
| `Engine.Visit` | src/crawler/crawl.ts:82-98 | Nothing happens when stopped, when the host differs from the base host, or when the identity was already visited. A same-host URL with a new identity is claimed and fetched, exactly one fetch, while the budget lasts; at a full budget it trips the stop and fetches nothing. Nothing is recorded, and the budget bound is kept. |
| `Engine.VisitAll` | src/crawler/crawl.ts:118-125 | Starting the children in link order records no page and only appends fetches. Every new fetch is of one of the links, and nothing happens once stopped. Unless the crawl stopped, every same-host link's identity ends up visited. |
| `Engine.VisitAllClaims` | src/crawler/crawl.ts:118-125 | Starting the children is the series of `addPageVisit` calls on the same-host links' identities in link order: the gate ends as that series leaves it, and the new fetches are exactly the identities it claims, in claim order. |
| `Engine.NothingNew` | src/crawler/crawl.ts:89-97 | Links that are off-host or already visited start nothing. |
| `Engine.DuplicateLinks` | src/crawler/crawl.ts:32-34 | Two links to one new identity, under budget, give one fetch, of the first link. |
| `Engine.RecordPage` | src/crawler/crawl.ts:104-106 | Recording adds exactly the claimed identity as a key, stores the extraction of the page's HTML under the URL as encountered, appends the key to the insertion order, keeps every other page, and leaves the gate and the fetches alone. |
| `Engine.Settle` | src/crawler/crawl.ts:103-125 | A failed fetch only ends the visit. Non-empty HTML is recorded under the claimed identity as its extraction; empty HTML records nothing. Once stopped, nothing more is claimed or fetched. New fetches are only of links extracted from this page's HTML, and unless stopped every same-host link is claimed. The stop flag never resets. |
| `Engine.AtRest` | src/crawler/crawl.ts:130-139 | With no fetch in flight, no event changes the state. |
| `Engine.OnePageSite` | src/crawler/crawl.ts:82-139 | A base page whose same-host links all lead back to itself gives one fetch, one record holding the base page's extraction, and nothing in flight, whatever happens later. |
| `Engine.InitialInv` | src/crawler/crawl.ts:16-25 | A fresh crawler satisfies the crawl invariant. |
| `Engine.VisitInv` | src/crawler/crawl.ts:82-98 | A visit preserves the crawl invariant. |
| `Engine.RecordInv` | src/crawler/crawl.ts:103-106 | Recording the non-empty HTML of a settled, claimed visit preserves the crawl invariant. |
| `Engine.SettleInv` | src/crawler/crawl.ts:100-127 | Resuming a suspended visit preserves the crawl invariant. |
| `Engine.RunInv` | src/crawler/crawl.ts:82-128 | Any sequence of events preserves the crawl invariant. |
| `Engine.Start` | src/crawler/crawl.ts:130-131 | `crawl()`'s root visit: an off-host or unparsable base starts nothing, a zero budget trips the stop with nothing fetched, and otherwise exactly the base is claimed and fetched, with nothing recorded. |
| `Engine.StartInv` | src/crawler/crawl.ts:130-131 | The crawl starts in a state satisfying the invariant. |
| `Engine.CrawlGuarantees` | src/crawler/crawl.ts:82-128 | At any point of any interleaving: at most `maxPages` fetches and records, and no identity fetched twice. Every fetched and recorded URL is on the base host. Recorded keys were claimed. Each record sits under its own URL's identity and is the extraction of that URL's non-empty HTML. |
| `Engine.RunKeepsBudget` | src/crawler/crawl.ts:24 | `maxPages` never changes during a crawl. |
| `Engine.RunMonotone` | src/crawler/crawl.ts:37-39 | The stop flag never resets. Once set, nothing more is claimed or fetched. The visited set only grows, and a recorded page is never changed or removed. |
| `Engine.SettleKeepsPages` | src/crawler/crawl.ts:104-106 | Resuming a visit never changes or removes an already recorded page. |
| `Engine.ResumedCount` | src/crawler/crawl.ts:100-127 | Each resumed visit settles exactly one fetch that is in flight. |
| `Engine.Quiesces` | src/crawler/crawl.ts:130-139 | However the event loop orders things, at most `maxPages` visits are ever resumed, so the crawl comes to rest. |
| `Engine.SettleReached` | src/crawler/crawl.ts:116-125 | After a visit resumes, every fetch is still of the base URL or of a link of a page fetched earlier. |
| `Engine.RunReached` | src/crawler/crawl.ts:116-125 | Any sequence of events keeps every fetch reachable from the base URL through links of earlier fetched pages. |
| `Engine.CrawlReaches` | src/crawler/crawl.ts:82-139 | Every fetched and every recorded page is reachable from the base URL by following links of pages fetched along the way. |
| `Text.Trim` | src/crawl.ts:21 | `trim` removes exactly the leading and trailing ECMAScript whitespace. The result is empty if and only if the text is all whitespace. |
| `Text.JoinSplit` | src/crawler/report.ts:36-37 | `join` with a one-character separator that no piece contains is undone by splitting on that character, so the joined cell determines the list. |
| `Text.Contains` | src/crawler/crawl.ts:73 | `includes` holds if and only if the substring occurs at some offset. |
| `Dom.QuerySelector` | src/crawler/crawl.ts:169 | `querySelector` finds an element if and only if one with the tag exists, and it finds the first in document order. |
| `Dom.DescendantsInForest` | src/crawler/crawl.ts:181-182 | Every element found inside an element of the document is an element of the document. |
| `Extract.GetH1` | src/crawl.ts:15-25 | The text of the first `h1` in document order, trimmed, or the empty string when there is no `h1`. |
| `Extract.GetFirstParagraph` | src/crawl.ts:27-39 | The first `p` inside the first `main` wins. With no `main`, or a `main` holding no `p`, it is the first `p` of the document. The text is trimmed, and it is empty when there is no `p`. |
| `Extract.ParagraphSource` | src/crawl.ts:33-35 | The paragraph comes from a `p` of the document. A selected `p` with whitespace-only text gives the empty string, and no other `p` is tried. |
| `Extract.CollectAppend` | src/crawler/crawl.ts:198-208 | Collecting URLs keeps document order: it distributes over concatenation. |
| `Extract.CollectMembers` | src/crawl.ts:41-64 | A URL is collected if and only if some element with the tag has a present, non-empty attribute that resolves to it. |
| `Extract.CollectBound` | src/crawl.ts:41-64 | No more URLs than elements with the tag; duplicates are kept, not merged. |
| `Extract.CollectTagged` | src/crawler/crawl.ts:196-198 | Collecting over `querySelectorAll(tag)` and over all elements give the same URLs. |
| `Extract.Extractors` | src/crawler/crawl.ts:190-237 | `getURLsFromHTML` (`a`, `href`) and `getImagesFromHTML` (`img`, `src`) each collect over `querySelectorAll` of their tag in document order: exactly the resolvable non-empty attributes, at most one per tagged element. |
| `Extract.CollectLoop` | src/crawler/crawl.ts:190-213 | The `forEach` loop over `querySelectorAll` computes exactly the filter-map of resolvable, non-empty attributes in document order. |
| `Extract.ExtractPageData` | src/crawl.ts:98-106 | The record keeps the page URL verbatim. Its heading is the trimmed text of the first `h1`, or empty. Its paragraph is the trimmed first `p` of the first `main`, else the first `p` of the document, or empty. Its links and images are exactly the resolvable non-empty `href`s of `a` and `src`s of `img`, at most one per element. |
| `Extract.CollectExactly` | src/crawl.ts:41-64 | A URL is collected if and only if some element with the tag has an attribute that resolves to it. |
| `Extract.EmptyPage` | src/crawler/crawl.test.ts:262-279 | A page without `h1`, `p`, `a` or `img` gives `""`, `""`, `[]`, `[]`. |
| `Csv.Escape` | src/crawler/report.ts:46-51 | The output starts with a quote if and only if the field contains `"`, `,` or a line feed. Any other field is returned unchanged. An unquoted output contains no comma, quote or line feed. A quoted one also ends with a quote. |
| `Csv.NoQuotesUnchanged` | src/crawler/report.ts:49 | Quote doubling leaves a text without quotes unchanged. |
| `Csv.ScanUnquotedPlain` | src/crawler/report.ts:48-50 | A field without commas or line feeds reads back as itself up to the next separator. |
| `Csv.ScanQuotedDoubled` | src/crawler/report.ts:49-50 | After the opening quote, collapsing each `""` up to the closing quote gives back the field. |
| `Csv.FieldRoundTrip` | src/crawler/report.ts:46-51 | Reading an escaped field back gives the original field and stops at the separator that follows it. |
| `Csv.EscapeRoundTrip` | src/crawler/report.ts:46-51 | Stripping the outer quotes of an escaped field and collapsing each `""` to `"` gives back the field. |
| `Csv.RecordThen` | src/crawler/report.ts:39 | An encoded record reads back as its fields, followed by whatever records come after its line feed. |
| `Csv.RecordsRoundTrip` | src/crawler/report.ts:39-43 | Any non-empty list of non-empty records, escaped and joined, parses back to exactly those records. |
| `Report.CsvText` | src/crawler/report.ts:17-20 | For a key list that lists exactly the record's keys, no text is written exactly when the page record has no keys. |
| `Report.HeaderIsPlain` | src/crawler/report.ts:22-29 | No header name needs quoting, so the unescaped header line equals its escaped form. |
| `Report.ReportParses` | src/crawler/report.ts:22-43 | The written text parses back to the header followed by one five-field line per page, in key order, with links and images joined by `;`. |
| `Report.KeyListCount` | src/crawler/report.ts:31 | `Object.values` yields one value per key. |
| `Report.EveryPageListed` | src/crawler/report.ts:29-43 | For a duplicate-free key list of exactly the record's keys, the text has `1 + |pages|` lines. The first is the header, and every page has a line of its own. |
| `Report.CrawlReport` | src/crawler/report.ts:13-43 | For the result of any crawl: nothing is written when no page was recorded. Otherwise the text parses to the header plus one line per recorded page, at most `maxPages + 1` lines. |

## Left out

- HTML parsing (JSDOM) is not modelled. The extractors take the parsed element tree. The `try`/`catch` around `new JSDOM` is left out, because a tree is always given.
- URL parsing and serialisation (`new URL`) are not modelled:
  - A parsed URL is a record of its components. The parser is a parameter of the site that returns `None` where it throws.
  - Resolution against a base is an uninterpreted function `resolve`.
  - Lowercasing is modelled for ASCII hosts only. IDNA and percent-encoding are out of scope.
- `fetch` itself, the `User-Agent` header, the `pLimit` limiter, the `AbortController` and the `allTasks` completion tracking are not modelled:
  - `fetch` is the site's `fetch` outcome per URL.
  - An abort or network error is a `Failed` outcome the event loop may choose for any fetch in flight.
  - For a valid concurrency, the limiter only delays fetches, and any delay is covered by the free choice of event order.
- `crawl()`'s final `Promise.allSettled` and its return value are not modelled as a moment in time. The properties hold after every prefix of events.
- `Engine.Settle`: a fetch that yields no HTML continues with the document parsed from the empty string. JSDOM parses that to a tree without links, but the model leaves the parser's result for it unconstrained.
- A base URL that does not parse makes `new URL(this.baseURL)` throw in the first `crawlPage` (src/crawler/crawl.ts:87), so `crawl()` rejects at its `await rootTask` (line 134). The model has no rejected crawl: such a base is treated as off-host, so `Start` is the initial state, nothing is fetched, and no report text is written.
- `Url.HostFromInput`: only ASCII domain names are covered. The URL parser also canonicalises IP literals (IPv4 shorthand and hexadecimal forms such as `127.1` or `0x7F.0.0.1` become `127.0.0.1`; IPv6 addresses are compressed, so `[0:0:0:0:0:0:0:1]` becomes `[::1]`) and strips tab and line feed characters from its input. Those rewrites change the length and are not modelled; `Url.SameIdentity` takes the parser's output as a hypothesis, so it is unaffected.
- A `maxConcurrency` that is not a positive integer or `Infinity` (0, -1, NaN, 1.5) makes `pLimit` throw a `TypeError` in the constructor (src/crawler/crawl.ts:23), so no crawl starts. This is not modelled: the model has no concurrency parameter.
- `Engine.RecordPage` and `Report.CrawlReport`: `pages` is a map with its insertion order kept beside it, not a JavaScript object. On a plain object (src/crawler/crawl.ts:6, 22), the assignment at line 105 with the key `"__proto__"` runs the inherited setter: it adds no own key and changes the prototype. That key is the identity of a base such as `http://__proto__/`. The source then finds no keys and writes no report (src/crawler/report.ts:17), while the model records the page and promises a header and one line. Object-key semantics are not modelled.
- `maxPages` is a natural number. NaN, fractional or negative budgets, which JavaScript would accept, are not modelled.
- Logging (`console.*`) is not modelled: it has no effect on the state.
- `fs.writeFileSync` and `path.resolve` in `writeCSVReport` are left out. The model is the text that would be written.
- `csvEscape`'s `field ?? ""` is not modelled: every field is a string.
- `generateReport` is not modelled: it is unfinished and returns `undefined` for a non-empty record.
- `src/crawler/index.ts` (command-line handling), `src/api/handlers.ts`, `src/middleware.ts`, `src/index.ts` and `src/config.ts` (HTTP server and configuration) are not part of this model.
- `Extract.CollectBound`: the bound is stated against the number of elements with the tag. That the filter-map keeps duplicates shows in `Extract.CollectAppend` (collecting distributes over concatenation, so two elements with one URL give it twice) rather than in a separate lemma.
- `Csv.ParseRecords`: the grammar is section 2 of RFC 4180 with a line feed as the record separator. A lone carriage return does not trigger quoting in `csvEscape`, so the grammar treats it as an ordinary character. Proper CRLF records are not modelled.

=== FILE: csv.dfy ===
/** `csvEscape` (src/crawler/report.ts:46-51) and the grammar it writes
    for: the field syntax of section 2 of RFC 4180 (rules 5 to 7), with the
    records separated by a line feed, which is what `writeCSVReport` joins
    them with. A field is quoted when it contains a double quote, a comma
    or a line feed; a lone carriage return does not cause quoting, which
    this grammar tolerates because it never ends a record. */
module Csv {
  import opened Wrappers
  import opened Text

  /** `str.replace(/"/g, '""')`. */
  function DoubleQuotes(s: string): (r: string)
    ensures |r| >= |s|
  {
    if s == [] then []
    else (if s[0] == '"' then "\"\"" else [s[0]]) + DoubleQuotes(s[1..])
  }

  /** The test `/[",\n]/.test(str)`. */
  predicate NeedsQuoting(s: string) {
    '"' in s || ',' in s || '\n' in s
  }

  predicate IsQuoted(r: string) {
    |r| > 0 && r[0] == '"'
  }

  /** `csvEscape`: a field that needs quoting has its quotes doubled and is
      wrapped in quotes; any other field is returned as it is. */
  function Escape(field: string): (r: string)
    ensures IsQuoted(r) <==> NeedsQuoting(field)
    ensures !NeedsQuoting(field) ==> r == field
    // an unquoted result cannot split a field or a record
    ensures !IsQuoted(r) ==> '"' !in r && ',' !in r && '\n' !in r
    ensures IsQuoted(r) ==> |r| >= 2 && r[|r| - 1] == '"'
  {
    var escaped := DoubleQuotes(field);
    if NeedsQuoting(field) then "\"" + escaped + "\""
    else
      NoQuotesUnchanged(field);
      escaped
  }

  lemma {:induction false} NoQuotesUnchanged(s: string)
    requires '"' !in s
    ensures DoubleQuotes(s) == s
    decreases |s|
  {
    if s != [] {
      assert '"' !in s[1..];
      NoQuotesUnchanged(s[1..]);
    }
  }

  // ---------------------------------------------------------------------
  // The grammar, as a reader of the report would parse it

  /** A non-escaped field: everything up to the next comma or line feed. */
  function ScanUnquoted(s: string): (r: (string, string))
    ensures r.0 + r.1 == s
    decreases |s|
  {
    if s == [] || s[0] == ',' || s[0] == '\n' then ([], s)
    else
      var (f, rest) := ScanUnquoted(s[1..]);
      ([s[0]] + f, rest)
  }

  /** The inside of an escaped field, after its opening quote: `""` stands
      for one quote and a lone `"` closes the field. `None` when the
      closing quote is missing. */
  function ScanQuoted(s: string): (r: Option<(string, string)>)
    ensures r.Some? ==> |r.value.1| < |s|
    decreases |s|
  {
    if s == [] then None
    else if s[0] == '"' then
      if |s| >= 2 && s[1] == '"' then
        match ScanQuoted(s[2..])
        case Some((f, rest)) => Some((['"'] + f, rest))
        case None => None
      else Some(([], s[1..]))
    else
      match ScanQuoted(s[1..])
      case Some((f, rest)) => Some(([s[0]] + f, rest))
      case None => None
  }

  /** One field, escaped or not, and the text after it. */
  function ScanField(s: string): (r: Option<(string, string)>)
    ensures r.Some? ==> |r.value.1| <= |s|
  {
    if |s| > 0 && s[0] == '"' then ScanQuoted(s[1..]) else Some(ScanUnquoted(s))
  }

  /** The records of a CSV text: fields separated by commas, records by
      line feeds. `None` when a quoted field is unterminated or followed by
      anything but a separator. */
  function ParseRecords(s: string): (r: Option<seq<seq<string>>>)
    ensures r.Some? ==> |r.value| > 0
    decreases |s|
  {
    match ScanField(s)
    case None => None
    case Some((f, rest)) =>
      if rest == [] then Some([[f]])
      else if rest[0] == ',' then
        match ParseRecords(rest[1..])
        case Some(records) => Some([[f] + records[0]] + records[1..])
        case None => None
      else if rest[0] == '\n' then
        match ParseRecords(rest[1..])
        case Some(records) => Some([[f]] + records)
        case None => None
      else None
  }

  // ---------------------------------------------------------------------
  // Round trips

  predicate EndsField(t: string) {
    t == [] || t[0] == ',' || t[0] == '\n'
  }

  lemma {:induction false} ScanUnquotedPlain(f: string, t: string)
    requires ',' !in f && '\n' !in f
    requires EndsField(t)
    ensures ScanUnquoted(f + t) == (f, t)
    decreases |f|
  {
    if f == [] {
      assert f + t == t;
    } else {
      var s := f + t;
      assert s[0] == f[0] && f[0] in f;
      assert s[1..] == f[1..] + t;
      assert ',' !in f[1..] && '\n' !in f[1..] by { assert forall c :: c in f[1..] ==> c in f; }
      ScanUnquotedPlain(f[1..], t);
      assert [f[0]] + f[1..] == f;
    }
  }

  lemma {:induction false} ScanQuotedDoubled(f: string, t: string)
    requires t == [] || t[0] != '"'
    ensures ScanQuoted(DoubleQuotes(f) + "\"" + t) == Some((f, t))
    decreases |f|
  {
    var s := DoubleQuotes(f) + "\"" + t;
    if f == [] {
      assert s == "\"" + t;
      assert s[1..] == t;
    } else if f[0] == '"' {
      assert s == "\"\"" + (DoubleQuotes(f[1..]) + "\"" + t);
      assert s[2..] == DoubleQuotes(f[1..]) + "\"" + t;
      ScanQuotedDoubled(f[1..], t);
      assert ['"'] + f[1..] == f;
    } else {
      assert s == [f[0]] + (DoubleQuotes(f[1..]) + "\"" + t);
      assert s[1..] == DoubleQuotes(f[1..]) + "\"" + t;
      ScanQuotedDoubled(f[1..], t);
      assert [f[0]] + f[1..] == f;
    }
  }

  /** Reading an escaped field back gives the original field and leaves
      the separator that follows it. */
  lemma FieldRoundTrip(f: string, t: string)
    requires EndsField(t)
    ensures ScanField(Escape(f) + t) == Some((f, t))
  {
    if NeedsQuoting(f) {
      var s := Escape(f) + t;
      assert s[1..] == DoubleQuotes(f) + "\"" + t;
      ScanQuotedDoubled(f, t);
    } else {
      ScanUnquotedPlain(f, t);
    }
  }

  /** Stripping the outer quotes of an escaped field and collapsing each
      `""` gives back the field. */
  lemma EscapeRoundTrip(f: string)
    ensures ScanField(Escape(f)) == Some((f, ""))
  {
    FieldRoundTrip(f, "");
    assert Escape(f) + "" == Escape(f);
  }

  /** `fields.map(csvEscape)`. */
  function EscapeAll(fields: seq<string>): (r: seq<string>)
    ensures |r| == |fields|
  {
    if fields == [] then [] else [Escape(fields[0])] + EscapeAll(fields[1..])
  }

  /** `fields.map(csvEscape).join(",")`. */
  function EncodeRecord(fields: seq<string>): string {
    Join(EscapeAll(fields), ",")
  }

  /** `records.map(EncodeRecord).join("\n")`. */
  function EncodeRecords(records: seq<seq<string>>): string {
    Join(EncodeAll(records), "\n")
  }

  function EncodeAll(records: seq<seq<string>>): (r: seq<string>)
    ensures |r| == |records|
  {
    if records == [] then [] else [EncodeRecord(records[0])] + EncodeAll(records[1..])
  }

  /** What follows a record's last field: the end of the text or a line
      feed and the records after it. */
  function After(first: seq<string>, t: string): Option<seq<seq<string>>>
    requires t == [] || t[0] == '\n'
  {
    if t == [] then Some([first])
    else
      match ParseRecords(t[1..])
      case Some(records) => Some([first] + records)
      case None => None
  }

  lemma LastField(f: string, t: string)
    requires t == [] || t[0] == '\n'
    ensures ParseRecords(Escape(f) + t) == After([f], t)
  {
    FieldRoundTrip(f, t);
  }

  lemma NextField(f: string, more: string, t: string)
    requires t == [] || t[0] == '\n'
    ensures ParseRecords(Escape(f) + "," + more + t) ==
              match ParseRecords(more + t)
              case Some(records) => Some([[f] + records[0]] + records[1..])
              case None => None
  {
    var rest := "," + more + t;
    assert Escape(f) + "," + more + t == Escape(f) + rest;
    FieldRoundTrip(f, rest);
    assert rest[1..] == more + t;
  }

  lemma PrependAfter(f: string, fields: seq<string>, t: string)
    requires t == [] || t[0] == '\n'
    ensures After(fields, t).Some? ==> After([f] + fields, t).Some?
    ensures After(fields, t).Some? ==>
              var records := After(fields, t).value;
              After([f] + fields, t) == Some([[f] + records[0]] + records[1..])
    ensures After(fields, t).None? ==> After([f] + fields, t).None?
  {
    if t == [] {
      var records := [fields];
      assert records[0] == fields && records[1..] == [];
      assert [[f] + records[0]] + records[1..] == [[f] + fields];
    } else if ParseRecords(t[1..]).Some? {
      var later := ParseRecords(t[1..]).value;
      assert ([fields] + later)[1..] == later;
    }
  }

  /** An encoded record followed by the end of the text or by a line feed
      parses back to its fields, then continues with what follows. */
  lemma {:induction false} RecordThen(fields: seq<string>, t: string)
    requires |fields| > 0
    requires t == [] || t[0] == '\n'
    ensures ParseRecords(EncodeRecord(fields) + t) == After(fields, t)
    decreases |fields|
  {
    var f := fields[0];
    var escaped := EscapeAll(fields);
    assert escaped[0] == Escape(f) && escaped[1..] == EscapeAll(fields[1..]);
    if |fields| == 1 {
      assert EncodeRecord(fields) == Escape(f);
      LastField(f, t);
      assert [f] == fields;
    } else {
      var more := EncodeRecord(fields[1..]);
      assert EncodeRecord(fields) == Escape(f) + "," + more;
      NextField(f, more, t);
      RecordThen(fields[1..], t);
      PrependAfter(f, fields[1..], t);
      assert [f] + fields[1..] == fields;
    }
  }

  /** The encoding of any non-empty list of non-empty records parses back
      to exactly those records: quoting keeps every field and every record
      boundary intact. */
  lemma {:induction false} RecordsRoundTrip(records: seq<seq<string>>)
    requires |records| > 0
    requires forall i :: 0 <= i < |records| ==> |records[i]| > 0
    ensures ParseRecords(EncodeRecords(records)) == Some(records)
    decreases |records|
  {
    var encoded := EncodeAll(records);
    assert encoded[0] == EncodeRecord(records[0]) && encoded[1..] == EncodeAll(records[1..]);
    if |records| == 1 {
      RecordThen(records[0], "");
      assert EncodeRecords(records) == EncodeRecord(records[0]) + "";
      assert [records[0]] == records;
    } else {
      var more := EncodeRecords(records[1..]);
      assert EncodeRecords(records) == EncodeRecord(records[0]) + ("\n" + more);
      RecordThen(records[0], "\n" + more);
      assert ("\n" + more)[1..] == more;
      RecordsRoundTrip(records[1..]);
      assert [records[0]] + records[1..] == records;
    }
  }
}

=== FILE: dom.dfy ===
/** The document JSDOM builds from a page's HTML, reduced to what the
    extractors query: elements with a tag name, attributes and children,
    and text. Parsing HTML into this tree is JSDOM's job and is not
    modelled; extractors receive the tree. */
module Dom {
  import opened Wrappers

  /** Tag names are lowercase, as the HTML parser produces them. */
  datatype Node =
    | Text(data: string)
    | Element(tag: string, attrs: map<string, string>, children: seq<Node>)

  /** The top-level nodes of a parsed document. */
  type Document = seq<Node>

  predicate HasTag(n: Node, tag: string) {
    n.Element? && n.tag == tag
  }

  /** The elements of a forest in document order (pre-order), the order in
      which `querySelector` and `querySelectorAll` visit them. */
  function Elements(nodes: seq<Node>): (es: seq<Node>)
    ensures forall i :: 0 <= i < |es| ==> es[i].Element?
    decreases nodes
  {
    if nodes == [] then [] else ElementsOf(nodes[0]) + Elements(nodes[1..])
  }

  /** `n` itself, if it is an element, followed by its descendants. */
  function ElementsOf(n: Node): (es: seq<Node>)
    ensures forall i :: 0 <= i < |es| ==> es[i].Element?
    ensures n.Element? ==> |es| > 0 && es[0] == n
    decreases n
  {
    match n
    case Text(_) => []
    case Element(_, _, children) => [n] + Elements(children)
  }

  /** `textContent`: the concatenated text of all descendant text nodes. */
  function TextContent(n: Node): string
    decreases n
  {
    match n
    case Text(data) => data
    case Element(_, _, children) => TextOfAll(children)
  }

  function TextOfAll(nodes: seq<Node>): string
    decreases nodes
  {
    if nodes == [] then "" else TextContent(nodes[0]) + TextOfAll(nodes[1..])
  }

  /** `i` is the position of the first element with this tag. */
  predicate IsFirst(es: seq<Node>, tag: string, i: int) {
    0 <= i < |es| && HasTag(es[i], tag) && forall j :: 0 <= j < i ==> !HasTag(es[j], tag)
  }

  predicate NoneTagged(es: seq<Node>, tag: string) {
    forall j :: 0 <= j < |es| ==> !HasTag(es[j], tag)
  }

  /** The position of the first element with this tag, searching from `from`. */
  function FindFirst(es: seq<Node>, tag: string, from: nat := 0): (r: Option<nat>)
    requires from <= |es|
    requires forall j :: 0 <= j < from ==> !HasTag(es[j], tag)
    ensures r.Some? ==> IsFirst(es, tag, r.value)
    ensures r.None? ==> NoneTagged(es, tag)
    decreases |es| - from
  {
    if from == |es| then None
    else if HasTag(es[from], tag) then Some(from)
    else FindFirst(es, tag, from + 1)
  }

  /** `root.querySelector(tag)` over the elements of `nodes`. */
  function QuerySelector(nodes: seq<Node>, tag: string): (r: Option<Node>)
    ensures r.Some? <==> !NoneTagged(Elements(nodes), tag)
    ensures forall i :: IsFirst(Elements(nodes), tag, i) ==> r == Some(Elements(nodes)[i])
  {
    var es := Elements(nodes);
    match FindFirst(es, tag)
    case Some(i) => FirstIsUnique(es, tag, i); Some(es[i])
    case None => None
  }

  lemma FirstIsUnique(es: seq<Node>, tag: string, i: int)
    requires IsFirst(es, tag, i)
    ensures forall k :: IsFirst(es, tag, k) ==> k == i
  {
  }

  /** `querySelectorAll(tag)`: the elements with this tag, in document order. */
  function QuerySelectorAll(nodes: seq<Node>, tag: string): seq<Node> {
    Tagged(Elements(nodes), tag)
  }

  function Tagged(es: seq<Node>, tag: string): (r: seq<Node>)
    ensures |r| <= |es|
    ensures forall i :: 0 <= i < |r| ==> HasTag(r[i], tag)
  {
    if es == [] then []
    else (if HasTag(es[0], tag) then [es[0]] else []) + Tagged(es[1..], tag)
  }

  /** The descendants of any element of a forest are elements of that
      forest too: a search inside an element finds nodes of the document. */
  lemma {:induction false} DescendantsInForest(nodes: seq<Node>, x: Node)
    requires x in Elements(nodes)
    ensures forall y :: y in Elements(x.children) ==> y in Elements(nodes)
    decreases nodes
  {
    var head := nodes[0];
    assert Elements(nodes) == ElementsOf(head) + Elements(nodes[1..]);
    if x in Elements(nodes[1..]) {
      DescendantsInForest(nodes[1..], x);
    } else {
      assert x in ElementsOf(head);
      assert ElementsOf(head) == [head] + Elements(head.children);
      if x != head {
        assert x in Elements(head.children);
        DescendantsInForest(head.children, x);
      }
    }
  }
}

=== FILE: engine.dfy ===
/** The crawl engine, `ConcurrentCrawler.crawlPage` and `crawl`
    (src/crawler/crawl.ts:82-140), as a transition system over an abstract
    site.

    `crawlPage` has two `await`s. The first, on `getHTML` (line 103), is
    where it suspends; everything before it runs atomically (`Visit`), and
    so does everything after it up to the second (`Settle`): recording the
    page and then, inside the synchronous `Array.from` mapper, running the
    synchronous prefix of every child `crawlPage` in link order. The second,
    on `Promise.all` (line 127), is the last statement: nothing runs after
    it, so resuming from it changes no state and is not an event. The event
    loop chooses which pending `getHTML` settles next and with what outcome;
    `Run` applies any such sequence of choices, so a property proved for
    every sequence holds for every interleaving. */
module Engine {
  import opened Wrappers
  import opened Url
  import opened Dom
  import opened Extract
  import opened Fetch
  import opened ClaimGate

  /** Everything the crawl learns from outside: the base URL, the URL
      parser (`new URL(s)`, `None` where it throws), URL resolution, the
      HTML parser, and what `fetch` settles with for each URL. */
  datatype Site = Site(
    base: string,
    parse: string -> Option<ParsedUrl>,
    resolve: Resolver,
    dom: string -> Document,
    fetch: string -> FetchResult)

  /** One `getHTML` call: the identity claimed for it and the URL fetched. */
  datatype Request = Request(id: string, url: string)

  /** The crawler's fields: `visited`, `shouldStop` and `maxPages` (in
      `gate`) and `pages`; the insertion order of `pages`' keys, which
      `Object.values` follows; the claimed identities whose `getHTML` has not
      settled yet, with the URL being fetched; and the log of every
      `getHTML` call made. */
  datatype CrawlState = CrawlState(
    gate: Gate,
    pages: map<string, PageData>,
    order: seq<string>,
    inFlight: map<string, string>,
    requested: seq<Request>)

  function Initial(maxPages: nat): CrawlState {
    CrawlState(Gate({}, false, maxPages), map[], [], map[], [])
  }

  /** `normalizeURL(url)`, or `None` where `new URL(url)` throws. */
  function Identity(site: Site, url: string): Option<string> {
    match site.parse(url)
    case Some(u) => Some(Normalize(u))
    case None => None
  }

  /** Both the base URL and `url` parse, with the same hostname. */
  predicate SameHost(site: Site, url: string) {
    && site.parse(site.base).Some?
    && site.parse(url).Some?
    && site.parse(site.base).value.host == site.parse(url).value.host
  }

  /** `crawlPage(url)` up to its `await`: give up when stopped, when the
      host differs from the base host (or a URL does not parse, which
      rejects this branch), or when the identity cannot be claimed;
      otherwise claim it and start `getHTML(url)`. */
  function Visit(site: Site, s: CrawlState, url: string): (s': CrawlState)
    ensures s'.pages == s.pages && s'.order == s.order
    ensures s'.gate.maxPages == s.gate.maxPages
    ensures s.gate.shouldStop ==> s' == s
    ensures !SameHost(site, url) ==> s' == s
    ensures s'.requested == s.requested ==> s'.inFlight == s.inFlight && s'.gate.visited == s.gate.visited
    ensures s'.requested != s.requested ==>
              && SameHost(site, url)
              && Identity(site, url).Some?
              && Identity(site, url).value !in s.gate.visited
              && s'.requested == s.requested + [Request(Identity(site, url).value, url)]
              && s'.inFlight == s.inFlight[Identity(site, url).value := url]
              && s'.gate.visited == s.gate.visited + {Identity(site, url).value}
    ensures Bounded(s.gate) ==> Bounded(s'.gate)
    ensures Extends(s, s', [url])
    // a same-host URL with a new identity is claimed and fetched while the budget lasts
    ensures !s.gate.shouldStop && SameHost(site, url) && Identity(site, url).value !in s.gate.visited
            && |s.gate.visited| < s.gate.maxPages ==>
              && s'.requested == s.requested + [Request(Identity(site, url).value, url)]
              && s'.gate.visited == s.gate.visited + {Identity(site, url).value}
              && !s'.gate.shouldStop
    // at a full budget it trips the stop instead, fetching nothing
    ensures !s.gate.shouldStop && SameHost(site, url) && Identity(site, url).value !in s.gate.visited
            && |s.gate.visited| >= s.gate.maxPages ==>
              s' == s.(gate := s.gate.(shouldStop := true))
    // an identity already visited changes nothing
    ensures SameHost(site, url) && Identity(site, url).value in s.gate.visited ==> s' == s
  {
    if s.gate.shouldStop then s
    else if !SameHost(site, url) then s
    else
      var id := Normalize(site.parse(url).value);
      var (isNewPage, gate) := AddPageVisit(s.gate, id);
      if isNewPage then
        s.(gate := gate, inFlight := s.inFlight[id := url], requested := s.requested + [Request(id, url)])
      else
        s.(gate := gate)
  }

  /** `s'` is `s` plus visits started for some of `urls`: no page is
      recorded, requests are only appended, every new request fetches one
      of `urls`, and nothing happens once stopped. */
  predicate Extends(s: CrawlState, s': CrawlState, urls: seq<string>) {
    && s'.pages == s.pages && s'.order == s.order
    && s'.gate.maxPages == s.gate.maxPages
    && (s.gate.shouldStop ==> s' == s)
    && (s.gate.shouldStop ==> s'.gate.shouldStop)
    && s.gate.visited <= s'.gate.visited
    && |s.requested| <= |s'.requested| && s'.requested[..|s.requested|] == s.requested
    && (forall i :: |s.requested| <= i < |s'.requested| ==> s'.requested[i].url in urls)
  }

  /** The `Array.from(urls, ...)` mapper of lines 118-125: for each link in
      order, stop if the flag is set, else run `crawlPage`'s synchronous
      prefix. */
  function VisitAll(site: Site, s: CrawlState, urls: seq<string>): (s': CrawlState)
    ensures Extends(s, s', urls)
    ensures Covers(site, s', urls)
    decreases |urls|
  {
    if urls == [] then s
    else
      var s1 := if s.gate.shouldStop then s else Visit(site, s, urls[0]);
      var s2 := VisitAll(site, s1, urls[1..]);
      ExtendsTrans(s, s1, s2, urls);
      CoversCons(site, s, s1, s2, urls);
      s2
  }

  /** Unless the crawl stopped, every same-host link has been claimed. */
  predicate Covers(site: Site, s: CrawlState, urls: seq<string>) {
    s.gate.shouldStop ||
    forall i :: 0 <= i < |urls| && SameHost(site, urls[i]) ==> Identity(site, urls[i]).value in s.gate.visited
  }

  lemma CoversCons(site: Site, s: CrawlState, s1: CrawlState, s2: CrawlState, urls: seq<string>)
    requires urls != []
    requires s1 == if s.gate.shouldStop then s else Visit(site, s, urls[0])
    requires Extends(s1, s2, urls[1..]) && Covers(site, s2, urls[1..])
    ensures Covers(site, s2, urls)
  {
    if !s2.gate.shouldStop {
      assert !s1.gate.shouldStop && !s.gate.shouldStop;
      forall i | 0 <= i < |urls| && SameHost(site, urls[i])
        ensures Identity(site, urls[i]).value in s2.gate.visited
      {
        if i > 0 { assert urls[i] == urls[1..][i - 1]; }
      }
    }
  }

  lemma ExtendsTrans(s: CrawlState, s1: CrawlState, s2: CrawlState, urls: seq<string>)
    requires urls != []
    requires Extends(s, s1, [urls[0]])
    requires Extends(s1, s2, urls[1..])
    ensures Extends(s, s2, urls)
  {
    assert s2.requested[..|s.requested|] == s1.requested[..|s1.requested|][..|s.requested|];
    forall i | |s.requested| <= i < |s2.requested| ensures s2.requested[i].url in urls {
      if i < |s1.requested| {
        assert s2.requested[i] == s1.requested[i];
        assert s1.requested[i].url in [urls[0]];
      } else {
        assert s2.requested[i].url in urls[1..];
      }
    }
  }

  /** The HTML `crawlPage` continues with: `(await getHTML(url)) ?? ""`. */
  function HtmlText(outcome: GetResult): string {
    if outcome.Html? then outcome.text else ""
  }

  /** `this.pages[normalizedCurrent] = extractPageData(html, currentURL)`,
      appending the key to the insertion order. */
  function RecordPage(site: Site, s: CrawlState, id: string, url: string, html: string): (s': CrawlState)
    ensures s'.gate == s.gate && s'.requested == s.requested && s'.inFlight == s.inFlight
    ensures s'.pages.Keys == s.pages.Keys + {id}
    ensures s'.pages[id] == ExtractPageData(site.dom(html), url, site.resolve)
    ensures s'.pages[id].url == url
    ensures forall k :: k in s.pages && k != id ==> s'.pages[k] == s.pages[k]
    ensures s'.order == s.order + [id]
  {
    s.(pages := s.pages[id := ExtractPageData(site.dom(html), url, site.resolve)], order := s.order + [id])
  }

  /** `crawlPage` after its `getHTML` settled with `outcome`: on an error,
      stop; otherwise record the page when the HTML is non-empty, stop if
      the flag is set, and else start visits for the page's links. */
  function Settle(site: Site, s: CrawlState, id: string, outcome: GetResult): (s': CrawlState)
    requires id in s.inFlight
    ensures s'.gate.maxPages == s.gate.maxPages
    ensures s.gate.shouldStop ==> s'.gate.shouldStop
    ensures s.gate.visited <= s'.gate.visited
    // a failed fetch spawns nothing and records nothing
    ensures outcome.Failed? ==> s' == s.(inFlight := s.inFlight - {id})
    // once stopped, nothing more is claimed or fetched
    ensures s.gate.shouldStop ==> s'.requested == s.requested && s'.gate == s.gate
    // new fetches are only of links of this page
    ensures |s.requested| <= |s'.requested| && s'.requested[..|s.requested|] == s.requested
    ensures forall i :: |s.requested| <= i < |s'.requested| ==>
              s'.requested[i].url in GetUrls(site.dom(HtmlText(outcome)), s.inFlight[id], site.resolve)
    // non-empty HTML is recorded under the claimed identity; empty HTML records nothing
    ensures !outcome.Failed? && |HtmlText(outcome)| > 0 ==>
              && s'.pages.Keys == s.pages.Keys + {id}
              && s'.pages[id] == ExtractPageData(site.dom(HtmlText(outcome)), s.inFlight[id], site.resolve)
    ensures !outcome.Failed? && |HtmlText(outcome)| == 0 ==> s'.pages == s.pages
    // unless stopped, every same-host link of the page has been claimed
    ensures !outcome.Failed? ==> Covers(site, s', GetUrls(site.dom(HtmlText(outcome)), s.inFlight[id], site.resolve))
  {
    var url := s.inFlight[id];
    var s1 := s.(inFlight := s.inFlight - {id});
    if outcome.Failed? then s1
    else
      var html := HtmlText(outcome);
      var s2 := if |html| > 0 then RecordPage(site, s1, id, url, html) else s1;
      if s2.gate.shouldStop then s2
      else VisitAll(site, s2, GetUrls(site.dom(html), url, site.resolve))
  }

  /** The event loop resumes the visit of `id` with `getHTML` settled as
      `outcome`. */
  datatype Event = Settled(id: string, outcome: GetResult)

  /** The visit of `id` is suspended, and `outcome` is either a failure
      (a network error, or the abort that follows budget exhaustion) or
      what `getHTML` makes of the site's response for that URL. */
  predicate Possible(site: Site, s: CrawlState, e: Event) {
    && e.id in s.inFlight
    && (e.outcome.Failed? || e.outcome == GetHtml(site.fetch(s.inFlight[e.id])))
  }

  function Step(site: Site, s: CrawlState, e: Event): CrawlState {
    if Possible(site, s, e) then Settle(site, s, e.id, e.outcome) else s
  }

  /** Applies the events in order; an event that is not possible when it
      comes is ignored. */
  function Run(site: Site, s: CrawlState, events: seq<Event>): CrawlState
    decreases |events|
  {
    if events == [] then s else Run(site, Step(site, s, events[0]), events[1..])
  }

  /** `crawl()` starts with `crawlPage(baseURL)` on a fresh crawler: an
      off-host (or unparsable) base starts nothing, a zero budget trips the
      stop at once, and otherwise the base is claimed and fetched. */
  function Start(site: Site, maxPages: nat): (s: CrawlState)
    ensures s.pages == map[] && s.order == [] && s.gate.maxPages == maxPages
    ensures !SameHost(site, site.base) ==> s == Initial(maxPages)
    ensures SameHost(site, site.base) && maxPages == 0 ==>
              s.gate.shouldStop && s.requested == [] && s.inFlight == map[]
    ensures SameHost(site, site.base) && maxPages > 0 ==>
              var id := Identity(site, site.base).value;
              && !s.gate.shouldStop && s.gate.visited == {id}
              && s.requested == [Request(id, site.base)]
              && s.inFlight == map[id := site.base]
  {
    Visit(site, Initial(maxPages), site.base)
  }

  /** The identities of the same-host links, in link order. */
  function HostIds(site: Site, urls: seq<string>): seq<string>
    decreases |urls|
  {
    if urls == [] then []
    else (if SameHost(site, urls[0]) then [Identity(site, urls[0]).value] else []) + HostIds(site, urls[1..])
  }

  function IdsOf(rs: seq<Request>): (ids: seq<string>)
    ensures |ids| == |rs| && forall i :: 0 <= i < |rs| ==> ids[i] == rs[i].id
  {
    seq(|rs|, i requires 0 <= i < |rs| => rs[i].id)
  }

  /** Starting the children is the series of `addPageVisit` calls on the
      identities of the same-host links, in link order: the gate ends as
      that series leaves it, and the identities fetched are exactly the
      ones it claims, in the order it claims them. */
  lemma {:induction false} VisitAllClaims(site: Site, s: CrawlState, urls: seq<string>)
    ensures var s' := VisitAll(site, s, urls);
            && s'.gate == ClaimAll(s.gate, HostIds(site, urls)).0
            && IdsOf(s'.requested[|s.requested|..]) == ClaimAll(s.gate, HostIds(site, urls)).1
    decreases |urls|
  {
    var s' := VisitAll(site, s, urls);
    if urls == [] {
      assert s'.requested[|s.requested|..] == [];
    } else {
      var u, rest := urls[0], urls[1..];
      var s1 := if s.gate.shouldStop then s else Visit(site, s, u);
      assert s' == VisitAll(site, s1, rest);
      VisitAllClaims(site, s1, rest);
      if SameHost(site, u) {
        ClaimStep(site, s, u, s1);
        assert HostIds(site, urls) == [Identity(site, u).value] + HostIds(site, rest);
        ClaimCons(s.requested, s1.requested, s'.requested, s.gate, s1.gate, s'.gate,
                  Identity(site, u).value, u, HostIds(site, rest));
      } else {
        assert s1 == s;
        assert HostIds(site, urls) == HostIds(site, rest);
      }
    }
  }

  /** The bookkeeping of one step of `VisitAllClaims`. */
  lemma ClaimCons(r0: seq<Request>, r1: seq<Request>, r2: seq<Request>, g0: Gate, g1: Gate, g2: Gate,
                  id: string, u: string, ids: seq<string>)
    requires g1 == AddPageVisit(g0, id).1
    requires r1 == r0 + (if AddPageVisit(g0, id).0 then [Request(id, u)] else [])
    requires |r1| <= |r2| && r2[..|r1|] == r1
    requires g2 == ClaimAll(g1, ids).0 && IdsOf(r2[|r1|..]) == ClaimAll(g1, ids).1
    ensures g2 == ClaimAll(g0, [id] + ids).0 && IdsOf(r2[|r0|..]) == ClaimAll(g0, [id] + ids).1
  {
    assert ([id] + ids)[0] == id && ([id] + ids)[1..] == ids;
    assert r2[|r0|..] == r1[|r0|..] + r2[|r1|..];
    IdsOfAppend(r1[|r0|..], r2[|r1|..]);
  }

  /** Offering one link to the gate is one `addPageVisit` call on its
      identity, and fetches it exactly when that call claims it. */
  lemma ClaimStep(site: Site, s: CrawlState, u: string, s1: CrawlState)
    requires SameHost(site, u)
    requires s1 == if s.gate.shouldStop then s else Visit(site, s, u)
    ensures var (ok, g1) := AddPageVisit(s.gate, Identity(site, u).value);
            && s1.gate == g1
            && s1.requested == s.requested + (if ok then [Request(Identity(site, u).value, u)] else [])
  {
  }

  lemma IdsOfAppend(a: seq<Request>, b: seq<Request>)
    ensures IdsOf(a + b) == IdsOf(a) + IdsOf(b)
  {
  }

  /** Links that are off-host or whose identities were all visited change
      nothing. */
  lemma {:induction false} NothingNew(site: Site, s: CrawlState, urls: seq<string>)
    requires forall i :: 0 <= i < |urls| && SameHost(site, urls[i]) ==> Identity(site, urls[i]).value in s.gate.visited
    ensures VisitAll(site, s, urls) == s
    decreases |urls|
  {
    if urls != [] {
      assert forall i :: 0 <= i < |urls[1..]| ==> urls[1..][i] == urls[i + 1];
      NothingNew(site, s, urls[1..]);
    }
  }

  /** Two links to one new identity, under budget: one claim, and one fetch,
      of the first of them. */
  lemma DuplicateLinks(site: Site, s: CrawlState, u: string, v: string)
    requires !s.gate.shouldStop && SameHost(site, u) && SameHost(site, v)
    requires Identity(site, u) == Identity(site, v)
    requires Identity(site, u).value !in s.gate.visited && |s.gate.visited| < s.gate.maxPages
    ensures VisitAll(site, s, [u, v]).requested == s.requested + [Request(Identity(site, u).value, u)]
  {
    var s1 := Visit(site, s, u);
    assert [u, v][1..] == [v];
    assert VisitAll(site, s1, [v]) == s1 by {
      assert Visit(site, s1, v) == s1;
      assert [v][1..] == [];
    }
  }

  /** With nothing in flight, no event is possible and the crawl is at rest. */
  lemma {:induction false} AtRest(site: Site, s: CrawlState, events: seq<Event>)
    requires s.inFlight == map[]
    ensures Run(site, s, events) == s
    decreases |events|
  {
    if events != [] {
      assert !Possible(site, s, events[0]);
      AtRest(site, s, events[1..]);
    }
  }

  /** A site whose base page links to no other page of its host: one
      fetch, one record, nothing left in flight, and no later event
      changes anything. */
  lemma OnePageSite(site: Site, maxPages: nat, html: string, later: seq<Event>)
    requires SameHost(site, site.base) && maxPages >= 1
    requires GetHtml(site.fetch(site.base)) == Html(html) && |html| > 0
    requires forall u :: u in GetUrls(site.dom(html), site.base, site.resolve) && SameHost(site, u) ==>
               Identity(site, u) == Identity(site, site.base)
    ensures var id := Identity(site, site.base).value;
            var r := Run(site, Start(site, maxPages), [Settled(id, Html(html))] + later);
            && r.pages.Keys == {id}
            && r.pages[id] == ExtractPageData(site.dom(html), site.base, site.resolve)
            && |r.requested| == 1
            && r.inFlight == map[]
  {
    var id := Identity(site, site.base).value;
    var s0 := Start(site, maxPages);
    assert s0.requested == [Request(id, site.base)] && s0.gate.visited == {id} && !s0.gate.shouldStop;
    assert s0.inFlight == map[id := site.base];
    var e := Settled(id, Html(html));
    assert Possible(site, s0, e);
    var s1 := s0.(inFlight := s0.inFlight - {id});
    assert s1.inFlight == map[];
    var s2 := RecordPage(site, s1, id, site.base, html);
    var links := GetUrls(site.dom(html), site.base, site.resolve);
    NothingNew(site, s2, links);
    var r1 := Settle(site, s0, id, e.outcome);
    assert r1 == s2;
    var events := [e] + later;
    assert Run(site, s0, events) == Run(site, r1, later);
    AtRest(site, r1, later);
  }

  // ---------------------------------------------------------------------
  // The invariant

  predicate RequestsWellFormed(site: Site, requested: seq<Request>) {
    forall i :: 0 <= i < |requested| ==>
      SameHost(site, requested[i].url) && Identity(site, requested[i].url) == Some(requested[i].id)
  }

  predicate IdsDistinct(requested: seq<Request>) {
    forall i, j :: 0 <= i < j < |requested| ==> requested[i].id != requested[j].id
  }

  function Ids(requested: seq<Request>): set<string> {
    set r | r in requested :: r.id
  }

  predicate InFlightRequested(s: CrawlState) {
    forall k :: k in s.inFlight ==> Request(k, s.inFlight[k]) in s.requested
  }

  /** `p` is what `extractPageData` makes of the non-empty HTML the site
      serves for `p.url`. */
  predicate IsRecord(site: Site, p: PageData) {
    var r := GetHtml(site.fetch(p.url));
    r.Html? && |r.text| > 0 && p == ExtractPageData(site.dom(r.text), p.url, site.resolve)
  }

  predicate PagesRecorded(site: Site, s: CrawlState) {
    forall k :: k in s.pages ==>
      Request(k, s.pages[k].url) in s.requested && k !in s.inFlight && IsRecord(site, s.pages[k])
  }

  predicate OrderListsPages(s: CrawlState) {
    && Distinct(s.order)
    && (forall i :: 0 <= i < |s.order| ==> s.order[i] in s.pages)
    && (forall k :: k in s.pages ==> k in s.order)
  }

  predicate Inv(site: Site, s: CrawlState) {
    && Bounded(s.gate)
    && RequestsWellFormed(site, s.requested)
    && IdsDistinct(s.requested)
    && s.gate.visited == Ids(s.requested)
    && InFlightRequested(s)
    && PagesRecorded(site, s)
    && OrderListsPages(s)
  }

  lemma InitialInv(site: Site, maxPages: nat)
    ensures Inv(site, Initial(maxPages))
  {
  }

  /** A visit keeps the invariant and starts as many fetches as it adds
      to the in-flight set. */
  lemma VisitInv(site: Site, s: CrawlState, url: string)
    requires Inv(site, s)
    ensures Inv(site, Visit(site, s, url))
    ensures |Visit(site, s, url).inFlight| - |s.inFlight| == |Visit(site, s, url).requested| - |s.requested|
  {
    var s' := Visit(site, s, url);
    if s'.requested != s.requested {
      var id := Identity(site, url).value;
      ClaimInv(site, s, Request(id, url), s');
    }
  }

  /** Claiming a fresh, well-formed request keeps the invariant. */
  lemma ClaimInv(site: Site, s: CrawlState, r: Request, s': CrawlState)
    requires Inv(site, s)
    requires SameHost(site, r.url) && Identity(site, r.url) == Some(r.id) && r.id !in s.gate.visited
    requires s'.pages == s.pages && s'.order == s.order && Bounded(s'.gate)
    requires s'.requested == s.requested + [r]
    requires s'.inFlight == s.inFlight[r.id := r.url]
    requires s'.gate.visited == s.gate.visited + {r.id}
    ensures Inv(site, s')
    ensures |s'.inFlight| == |s.inFlight| + 1
  {
    assert r.id !in s.inFlight;
    AppendRequest(s.requested, r);
    WellFormedAppend(site, s.requested, r);
    InFlightAppend(s, r, s');
    PagesAppend(site, s, r, s');
  }

  lemma WellFormedAppend(site: Site, requested: seq<Request>, r: Request)
    requires RequestsWellFormed(site, requested)
    requires SameHost(site, r.url) && Identity(site, r.url) == Some(r.id)
    ensures RequestsWellFormed(site, requested + [r])
  {
    var rs := requested + [r];
    forall i | 0 <= i < |rs| ensures SameHost(site, rs[i].url) && Identity(site, rs[i].url) == Some(rs[i].id) {
      if i < |requested| { assert rs[i] == requested[i]; }
    }
  }

  lemma InFlightAppend(s: CrawlState, r: Request, s': CrawlState)
    requires InFlightRequested(s)
    requires s'.requested == s.requested + [r]
    requires s'.inFlight == s.inFlight[r.id := r.url]
    ensures InFlightRequested(s')
  {
    forall k | k in s'.inFlight ensures Request(k, s'.inFlight[k]) in s'.requested {
      if k != r.id { assert Request(k, s.inFlight[k]) in s.requested; }
    }
  }

  lemma PagesAppend(site: Site, s: CrawlState, r: Request, s': CrawlState)
    requires PagesRecorded(site, s)
    requires r.id !in Ids(s.requested)
    requires s'.pages == s.pages
    requires s'.requested == s.requested + [r]
    requires s'.inFlight == s.inFlight[r.id := r.url]
    ensures PagesRecorded(site, s')
  {
    forall k | k in s'.pages
      ensures Request(k, s'.pages[k].url) in s'.requested && k !in s'.inFlight
    {
      assert Request(k, s.pages[k].url) in s.requested;
    }
  }

  lemma AppendRequest(requested: seq<Request>, r: Request)
    requires IdsDistinct(requested) && r.id !in Ids(requested)
    ensures IdsDistinct(requested + [r])
    ensures Ids(requested + [r]) == Ids(requested) + {r.id}
  {
    var rs := requested + [r];
    forall i, j | 0 <= i < j < |rs| ensures rs[i].id != rs[j].id {
      if j == |requested| {
        assert rs[i] in requested;
      } else {
        assert rs[i] == requested[i] && rs[j] == requested[j];
      }
    }
  }

  lemma {:induction false} VisitAllInv(site: Site, s: CrawlState, urls: seq<string>)
    requires Inv(site, s)
    ensures Inv(site, VisitAll(site, s, urls))
    ensures |VisitAll(site, s, urls).inFlight| - |s.inFlight| == |VisitAll(site, s, urls).requested| - |s.requested|
    decreases |urls|
  {
    if urls != [] {
      var s1 := if s.gate.shouldStop then s else Visit(site, s, urls[0]);
      if !s.gate.shouldStop { VisitInv(site, s, urls[0]); }
      VisitAllInv(site, s1, urls[1..]);
    }
  }

  /** Settling a possible event keeps the invariant and removes exactly one
      visit from the in-flight set, net of the visits it starts. */
  lemma SettleInv(site: Site, s: CrawlState, e: Event)
    requires Inv(site, s) && Possible(site, s, e)
    ensures Inv(site, Settle(site, s, e.id, e.outcome))
    ensures |Settle(site, s, e.id, e.outcome).inFlight| + 1 - |s.inFlight|
            == |Settle(site, s, e.id, e.outcome).requested| - |s.requested|
  {
    var id, outcome := e.id, e.outcome;
    var url := s.inFlight[id];
    var s1 := s.(inFlight := s.inFlight - {id});
    assert s1.inFlight.Keys == s.inFlight.Keys - {id};
    assert |s1.inFlight| == |s.inFlight| - 1;
    assert Inv(site, s1);
    if !outcome.Failed? {
      var html := HtmlText(outcome);
      var s2 := if |html| > 0 then RecordPage(site, s1, id, url, html) else s1;
      if |html| > 0 {
        assert Request(id, url) in s1.requested && id !in s1.pages;
        RecordInv(site, s1, id, url, html);
      }
      if !s2.gate.shouldStop {
        VisitAllInv(site, s2, GetUrls(site.dom(html), url, site.resolve));
      }
    }
  }

  /** Recording the non-empty HTML of a settled, claimed visit keeps the
      invariant. */
  lemma RecordInv(site: Site, s: CrawlState, id: string, url: string, html: string)
    requires Inv(site, s)
    requires Request(id, url) in s.requested && id !in s.inFlight && id !in s.pages
    requires GetHtml(site.fetch(url)) == Html(html) && |html| > 0
    ensures Inv(site, RecordPage(site, s, id, url, html))
  {
    var s' := RecordPage(site, s, id, url, html);
    OrderAppend(s, id, s');
    RecordedPages(site, s, id, url, html, s');
  }

  lemma RecordedPages(site: Site, s: CrawlState, id: string, url: string, html: string, s': CrawlState)
    requires PagesRecorded(site, s)
    requires Request(id, url) in s.requested && id !in s.inFlight
    requires GetHtml(site.fetch(url)) == Html(html) && |html| > 0
    requires s'.requested == s.requested && s'.inFlight == s.inFlight
    requires s'.pages == s.pages[id := ExtractPageData(site.dom(html), url, site.resolve)]
    ensures PagesRecorded(site, s')
  {
    var p := ExtractPageData(site.dom(html), url, site.resolve);
    NewRecord(site, url, html, p);
    forall k | k in s'.pages
      ensures Request(k, s'.pages[k].url) in s'.requested && k !in s'.inFlight && IsRecord(site, s'.pages[k])
    {
      if k != id {
        assert s'.pages[k] == s.pages[k];
      }
    }
  }

  /** The extraction of a URL's non-empty HTML is a record of that URL. */
  lemma NewRecord(site: Site, url: string, html: string, p: PageData)
    requires GetHtml(site.fetch(url)) == Html(html) && |html| > 0
    requires p == ExtractPageData(site.dom(html), url, site.resolve)
    ensures IsRecord(site, p)
  {
    assert p.url == url;
  }

  lemma OrderAppend(s1: CrawlState, id: string, s2: CrawlState)
    requires OrderListsPages(s1) && id !in s1.pages
    requires s2.pages.Keys == s1.pages.Keys + {id} && s2.order == s1.order + [id]
    ensures OrderListsPages(s2)
  {
    assert id !in s1.order;
    var o := s2.order;
    forall i, j | 0 <= i < j < |o| ensures o[i] != o[j] {
      if j == |s1.order| { assert o[i] == s1.order[i]; }
      else { assert o[i] == s1.order[i] && o[j] == s1.order[j]; }
    }
    forall i | 0 <= i < |o| ensures o[i] in s2.pages {
      if i < |s1.order| { assert o[i] == s1.order[i]; }
    }
  }

  // ---------------------------------------------------------------------
  // Properties of every run

  /** Every run from every state satisfying the invariant keeps it. */
  lemma {:induction false} RunInv(site: Site, s: CrawlState, events: seq<Event>)
    requires Inv(site, s)
    ensures Inv(site, Run(site, s, events))
    decreases |events|
  {
    if events != [] {
      if Possible(site, s, events[0]) { SettleInv(site, s, events[0]); }
      RunInv(site, Step(site, s, events[0]), events[1..]);
    }
  }

  lemma StartInv(site: Site, maxPages: nat)
    ensures Inv(site, Start(site, maxPages))
  {
    InitialInv(site, maxPages);
    VisitInv(site, Initial(maxPages), site.base);
  }

  /** The distinct identities of the requests are as many as the requests. */
  lemma {:induction false} IdsCount(requested: seq<Request>)
    requires IdsDistinct(requested)
    ensures |Ids(requested)| == |requested|
    decreases |requested|
  {
    if requested != [] {
      var init := requested[..|requested| - 1];
      var last := requested[|requested| - 1];
      assert requested == init + [last];
      assert IdsDistinct(init);
      IdsCount(init);
      assert last.id !in Ids(init);
      AppendRequest(init, last);
    }
  }

  lemma SubsetCard(a: set<string>, b: set<string>)
    requires a <= b
    ensures |a| <= |b|
  {
    assert b == a + (b - a);
  }

  /** What a crawl guarantees at any point of any interleaving: at most
      `maxPages` fetches and records; no identity fetched twice; every
      fetched and every recorded URL is on the base host; each record is
      stored under the identity of its own URL, which was claimed, and is
      what the extractors make of that URL's HTML. */
  lemma CrawlGuarantees(site: Site, maxPages: nat, events: seq<Event>)
    ensures var r := Run(site, Start(site, maxPages), events);
            && |r.requested| <= maxPages
            && |r.pages| <= maxPages
            && IdsDistinct(r.requested)
            && (forall i :: 0 <= i < |r.requested| ==> SameHost(site, r.requested[i].url))
            && r.pages.Keys <= r.gate.visited
            && (forall k :: k in r.pages ==>
                  && SameHost(site, r.pages[k].url)
                  && Identity(site, r.pages[k].url) == Some(k)
                  && IsRecord(site, r.pages[k]))
  {
    StartInv(site, maxPages);
    var s0 := Start(site, maxPages);
    RunInv(site, s0, events);
    var r := Run(site, s0, events);
    RunKeepsBudget(site, s0, events);
    IdsCount(r.requested);
    PagesClaimed(site, r.pages, r.requested);
    SubsetCard(r.pages.Keys, r.gate.visited);
  }

  /** A page whose identity and URL were requested is on the base host,
      under its URL's identity, and was claimed. */
  lemma PagesClaimed(site: Site, pages: map<string, PageData>, requested: seq<Request>)
    requires RequestsWellFormed(site, requested)
    requires forall k :: k in pages ==> Request(k, pages[k].url) in requested
    ensures forall k :: k in pages ==>
              && k in Ids(requested)
              && SameHost(site, pages[k].url)
              && Identity(site, pages[k].url) == Some(k)
  {
    forall k | k in pages
      ensures k in Ids(requested) && SameHost(site, pages[k].url) && Identity(site, pages[k].url) == Some(k)
    {
      var q := Request(k, pages[k].url);
      var i :| 0 <= i < |requested| && requested[i] == q;
    }
  }

  lemma {:induction false} RunKeepsBudget(site: Site, s: CrawlState, events: seq<Event>)
    ensures Run(site, s, events).gate.maxPages == s.gate.maxPages
    decreases |events|
  {
    if events != [] {
      RunKeepsBudget(site, Step(site, s, events[0]), events[1..]);
    }
  }

  /** The stop flag never resets, recorded pages never change, and once the
      flag is set no identity is claimed and no page is fetched again. */
  lemma {:induction false} RunMonotone(site: Site, s: CrawlState, events: seq<Event>)
    requires Inv(site, s)
    ensures var r := Run(site, s, events);
            && (s.gate.shouldStop ==> r.gate == s.gate && r.requested == s.requested)
            && (s.gate.shouldStop ==> r.gate.shouldStop)
            && s.gate.visited <= r.gate.visited
            && (forall k :: k in s.pages ==> k in r.pages && r.pages[k] == s.pages[k])
    decreases |events|
  {
    if events != [] {
      if Possible(site, s, events[0]) {
        SettleInv(site, s, events[0]);
        SettleKeepsPages(site, s, events[0]);
      }
      RunMonotone(site, Step(site, s, events[0]), events[1..]);
    }
  }

  /** A settled visit adds at most its own page; recorded pages stay. */
  lemma SettleKeepsPages(site: Site, s: CrawlState, e: Event)
    requires Inv(site, s) && Possible(site, s, e)
    ensures var s' := Settle(site, s, e.id, e.outcome);
            forall k :: k in s.pages ==> k in s'.pages && s'.pages[k] == s.pages[k]
  {
    var id, outcome := e.id, e.outcome;
    assert id !in s.pages;
    var url := s.inFlight[id];
    var s1 := s.(inFlight := s.inFlight - {id});
    if !outcome.Failed? {
      var html := HtmlText(outcome);
      var s2 := if |html| > 0 then RecordPage(site, s1, id, url, html) else s1;
      assert forall k :: k in s.pages ==> k in s2.pages && s2.pages[k] == s.pages[k];
      if !s2.gate.shouldStop {
        assert VisitAll(site, s2, GetUrls(site.dom(html), url, site.resolve)).pages == s2.pages;
      }
    }
  }

  /** The number of events that actually resumed a visit. */
  function Resumed(site: Site, s: CrawlState, events: seq<Event>): nat
    decreases |events|
  {
    if events == [] then 0
    else (if Possible(site, s, events[0]) then 1 else 0) + Resumed(site, Step(site, s, events[0]), events[1..])
  }

  /** Each resumed visit settles one in-flight fetch; fetches are only
      started by claims, so however the events are chosen, at most
      `maxPages` visits are ever resumed and the crawl quiesces. */
  lemma {:induction false} ResumedCount(site: Site, s: CrawlState, events: seq<Event>)
    requires Inv(site, s)
    ensures var r := Run(site, s, events);
            Resumed(site, s, events) == |s.inFlight| - |r.inFlight| + |r.requested| - |s.requested|
    decreases |events|
  {
    if events != [] {
      if Possible(site, s, events[0]) { SettleInv(site, s, events[0]); }
      ResumedCount(site, Step(site, s, events[0]), events[1..]);
    }
  }

  lemma Quiesces(site: Site, maxPages: nat, events: seq<Event>)
    ensures Resumed(site, Start(site, maxPages), events) <= maxPages
  {
    var s0 := Start(site, maxPages);
    StartInv(site, maxPages);
    ResumedCount(site, s0, events);
    CrawlGuarantees(site, maxPages, events);
    assert |s0.inFlight| == |s0.requested| by {
      VisitInv(site, Initial(maxPages), site.base);
    }
  }

  // ---------------------------------------------------------------------
  // Reachability

  /** The links `crawlPage` follows from `url` when its fetch goes
      through: those of the page the site serves for it (none when the
      response is not HTML). */
  function Links(site: Site, url: string): seq<string> {
    GetUrls(site.dom(HtmlText(GetHtml(site.fetch(url)))), url, site.resolve)
  }

  /** The first fetch is of the base URL, and every later one is of a link
      of a page fetched before it. */
  predicate Reached(site: Site, requested: seq<Request>) {
    && (|requested| > 0 ==> requested[0].url == site.base)
    && forall i :: 0 < i < |requested| ==>
         exists j :: 0 <= j < i && requested[i].url in Links(site, requested[j].url)
  }

  lemma StartReached(site: Site, maxPages: nat)
    ensures Reached(site, Start(site, maxPages).requested)
  {
  }

  lemma SettleReached(site: Site, s: CrawlState, e: Event)
    requires InFlightRequested(s) && Possible(site, s, e)
    requires Reached(site, s.requested)
    ensures Reached(site, Settle(site, s, e.id, e.outcome).requested)
  {
    var s' := Settle(site, s, e.id, e.outcome);
    var n := |s.requested|;
    var url := s.inFlight[e.id];
    assert Request(e.id, url) in s.requested;
    var j :| 0 <= j < n && s.requested[j] == Request(e.id, url);
    forall i | 0 < i < |s'.requested|
      ensures exists k :: 0 <= k < i && s'.requested[i].url in Links(site, s'.requested[k].url)
    {
      if i < n {
        assert s'.requested[i] == s.requested[i];
        var k :| 0 <= k < i && s.requested[i].url in Links(site, s.requested[k].url);
        assert s'.requested[k] == s.requested[k];
      } else {
        assert !e.outcome.Failed?;
        assert s'.requested[j] == s.requested[j];
        assert s'.requested[i].url in Links(site, s'.requested[j].url);
      }
    }
    assert n > 0 ==> s'.requested[0] == s.requested[0];
  }

  lemma {:induction false} RunReached(site: Site, s: CrawlState, events: seq<Event>)
    requires Inv(site, s) && Reached(site, s.requested)
    ensures Reached(site, Run(site, s, events).requested)
    decreases |events|
  {
    if events != [] {
      if Possible(site, s, events[0]) {
        SettleInv(site, s, events[0]);
        SettleReached(site, s, events[0]);
      }
      RunReached(site, Step(site, s, events[0]), events[1..]);
    }
  }

  /** Every page fetched, and so every page recorded, is reachable from
      the base URL by following links of pages fetched along the way. */
  lemma CrawlReaches(site: Site, maxPages: nat, events: seq<Event>)
    ensures var r := Run(site, Start(site, maxPages), events);
            && Reached(site, r.requested)
            && (forall k :: k in r.pages ==> Request(k, r.pages[k].url) in r.requested)
  {
    StartInv(site, maxPages);
    StartReached(site, maxPages);
    RunReached(site, Start(site, maxPages), events);
    RunInv(site, Start(site, maxPages), events);
  }
}

=== FILE: extract.dfy ===
/** The page extractors of src/crawler/crawl.ts:164-255 (verbatim copies in
    src/crawl.ts:15-106). Each takes the document JSDOM parsed from the
    page's HTML; URL resolution, `new URL(href, base).toString()`, is the
    parameter `resolve`, which yields `None` where the constructor throws. */
module Extract {
  import opened Wrappers
  import opened Text
  import opened Dom

  /** `ExtractedPageData`. */
  datatype PageData = PageData(
    url: string,
    h1: string,
    firstParagraph: string,
    outgoingLinks: seq<string>,
    imageUrls: seq<string>)

  /** `(href, base) -> new URL(href, base).toString()`, or `None` if it throws. */
  type Resolver = (string, string) -> Option<string>

  /** `el?.textContent.trim() || ""`. */
  function TrimmedText(e: Option<Node>): string {
    match e
    case Some(n) => Trim(TextContent(n))
    case None => ""
  }

  /** `getH1FromHTML`: the trimmed text of the first `h1` in document
      order, or the empty string when there is none. */
  function GetH1(doc: Document): (r: string)
    ensures IsTrimmed(r)
    ensures NoneTagged(Elements(doc), "h1") ==> r == ""
    ensures forall i :: IsFirst(Elements(doc), "h1", i) ==> r == Trim(TextContent(Elements(doc)[i]))
  {
    TrimmedText(QuerySelector(doc, "h1"))
  }

  /** The paragraph `main?.querySelector("p") ?? doc.querySelector("p")`
      selects: the first `p` inside the first `main`, else the first `p`
      of the whole document. */
  function SelectParagraph(doc: Document): Option<Node> {
    var fromMain :=
      match QuerySelector(doc, "main")
      case Some(m) => QuerySelector(m.children, "p")
      case None => None;
    if fromMain.Some? then fromMain else QuerySelector(doc, "p")
  }

  /** `getFirstParagraphFromHTML`. */
  function GetFirstParagraph(doc: Document): (r: string)
    ensures IsTrimmed(r)
    // a `p` inside the first `main` wins over any earlier `p`
    ensures forall i, j :: IsFirst(Elements(doc), "main", i) && IsFirst(Elements(Elements(doc)[i].children), "p", j) ==>
              r == Trim(TextContent(Elements(Elements(doc)[i].children)[j]))
    // with no `main`, the first `p` of the document
    ensures NoneTagged(Elements(doc), "main") ==>
              forall k :: IsFirst(Elements(doc), "p", k) ==> r == Trim(TextContent(Elements(doc)[k]))
    // with a `main` holding no `p`, also the first `p` of the document
    ensures forall i :: IsFirst(Elements(doc), "main", i) && NoneTagged(Elements(Elements(doc)[i].children), "p") ==>
              forall k :: IsFirst(Elements(doc), "p", k) ==> r == Trim(TextContent(Elements(doc)[k]))
    ensures NoneTagged(Elements(doc), "p") ==> r == ""
  {
    var p := SelectParagraph(doc);
    match QuerySelector(doc, "main")
    case Some(m) =>
      DescendantsInForest(doc, m);
      ParagraphsOfSubtree(doc, m);
      TrimmedText(p)
    case None => TrimmedText(p)
  }

  /** A document with no `p` has none inside any of its elements either. */
  lemma ParagraphsOfSubtree(doc: Document, m: Node)
    requires m in Elements(doc)
    requires forall y :: y in Elements(m.children) ==> y in Elements(doc)
    ensures NoneTagged(Elements(doc), "p") ==> NoneTagged(Elements(m.children), "p")
  {
    if NoneTagged(Elements(doc), "p") {
      forall j | 0 <= j < |Elements(m.children)| ensures !HasTag(Elements(m.children)[j], "p") {
        var y := Elements(m.children)[j];
        assert y in Elements(doc);
      }
    }
  }

  /** The paragraph text comes from a `p` element of the document, and a
      selected `p` whose text is only whitespace gives the empty string:
      no other `p` is tried. */
  lemma ParagraphSource(doc: Document)
    ensures var p := SelectParagraph(doc);
            && (p.Some? ==> p.value in Elements(doc) && HasTag(p.value, "p"))
            && (p.Some? && AllWhitespace(TextContent(p.value)) ==> GetFirstParagraph(doc) == "")
            && (p.None? ==> GetFirstParagraph(doc) == "")
  {
    match QuerySelector(doc, "main")
    case Some(m) =>
      DescendantsInForest(doc, m);
    case None =>
  }

  /** The URL an element contributes: it has the tag, the attribute is
      present and non-empty (`if (!href) return;`), and it resolves. */
  function Resolved(e: Node, tag: string, attr: string, base: string, resolve: Resolver): Option<string> {
    if HasTag(e, tag) && attr in e.attrs && e.attrs[attr] != "" then resolve(e.attrs[attr], base)
    else None
  }

  /** The URLs of the elements `es`, in order, skipping those that
      contribute none. */
  function Collect(es: seq<Node>, tag: string, attr: string, base: string, resolve: Resolver): seq<string> {
    if es == [] then []
    else
      (match Resolved(es[0], tag, attr, base, resolve) case Some(u) => [u] case None => [])
      + Collect(es[1..], tag, attr, base, resolve)
  }

  /** Collecting distributes over concatenation: document order is kept. */
  lemma {:induction false} CollectAppend(a: seq<Node>, b: seq<Node>, tag: string, attr: string, base: string, resolve: Resolver)
    ensures Collect(a + b, tag, attr, base, resolve) == Collect(a, tag, attr, base, resolve) + Collect(b, tag, attr, base, resolve)
    decreases a
  {
    if a == [] {
      assert a + b == b;
    } else {
      assert (a + b)[1..] == a[1..] + b;
      CollectAppend(a[1..], b, tag, attr, base, resolve);
    }
  }

  /** Exactly the URLs of contributing elements appear, duplicates included
      (each element contributes its own entry). */
  lemma {:induction false} CollectMembers(es: seq<Node>, tag: string, attr: string, base: string, resolve: Resolver, u: string)
    ensures u in Collect(es, tag, attr, base, resolve)
            <==> exists i :: 0 <= i < |es| && Resolved(es[i], tag, attr, base, resolve) == Some(u)
    decreases es
  {
    if es != [] {
      CollectMembers(es[1..], tag, attr, base, resolve, u);
      if exists i :: 0 <= i < |es| && Resolved(es[i], tag, attr, base, resolve) == Some(u) {
        var i :| 0 <= i < |es| && Resolved(es[i], tag, attr, base, resolve) == Some(u);
        if i > 0 { assert es[1..][i - 1] == es[i]; }
      }
      if exists i :: 0 <= i < |es[1..]| && Resolved(es[1..][i], tag, attr, base, resolve) == Some(u) {
        var i :| 0 <= i < |es[1..]| && Resolved(es[1..][i], tag, attr, base, resolve) == Some(u);
        assert es[i + 1] == es[1..][i];
      }
    }
  }

  /** No more URLs than elements with the tag. */
  lemma {:induction false} CollectBound(es: seq<Node>, tag: string, attr: string, base: string, resolve: Resolver)
    ensures |Collect(es, tag, attr, base, resolve)| <= |Tagged(es, tag)|
    decreases es
  {
    if es != [] {
      CollectBound(es[1..], tag, attr, base, resolve);
    }
  }

  /** Elements without the tag contribute nothing, so collecting over
      `querySelectorAll(tag)` and over all elements agree. */
  lemma {:induction false} CollectTagged(es: seq<Node>, tag: string, attr: string, base: string, resolve: Resolver)
    ensures Collect(Tagged(es, tag), tag, attr, base, resolve) == Collect(es, tag, attr, base, resolve)
    decreases es
  {
    if es != [] {
      CollectTagged(es[1..], tag, attr, base, resolve);
      var head := if HasTag(es[0], tag) then [es[0]] else [];
      CollectAppend(head, Tagged(es[1..], tag), tag, attr, base, resolve);
    }
  }

  /** The loop of `getURLsFromHTML` / `getImagesFromHTML`: walk
      `querySelectorAll(tag)` and push each resolvable, non-empty attribute. */
  method CollectLoop(doc: Document, tag: string, attr: string, base: string, resolve: Resolver)
    returns (urls: seq<string>)
    ensures urls == Collect(Elements(doc), tag, attr, base, resolve)
  {
    var elements := QuerySelectorAll(doc, tag);
    urls := [];
    var i := 0;
    while i < |elements|
      invariant 0 <= i <= |elements|
      invariant urls == Collect(elements[..i], tag, attr, base, resolve)
    {
      var element := elements[i];
      var value := if attr in element.attrs then element.attrs[attr] else "";
      if value != "" {
        match resolve(value, base)
        case Some(url) => urls := urls + [url];
        case None =>
      }
      CollectAppend(elements[..i], [element], tag, attr, base, resolve);
      assert elements[..i + 1] == elements[..i] + [element];
      i := i + 1;
    }
    assert elements[..i] == elements;
    CollectTagged(Elements(doc), tag, attr, base, resolve);
  }

  /** `getURLsFromHTML`: the resolved `href` of every `a`, in document order. */
  function GetUrls(doc: Document, pageUrl: string, resolve: Resolver): seq<string> {
    Collect(Elements(doc), "a", "href", pageUrl, resolve)
  }

  /** `getImagesFromHTML`: the resolved `src` of every `img`, in document order. */
  function GetImages(doc: Document, pageUrl: string, resolve: Resolver): seq<string> {
    Collect(Elements(doc), "img", "src", pageUrl, resolve)
  }

  /** What the two URL extractors compute: each loops over
      `querySelectorAll` of its tag only, in document order, and yields
      exactly the resolvable non-empty attributes, at most one per tagged
      element. */
  lemma Extractors(doc: Document, pageUrl: string, resolve: Resolver)
    ensures GetUrls(doc, pageUrl, resolve) == Collect(QuerySelectorAll(doc, "a"), "a", "href", pageUrl, resolve)
    ensures forall u :: u in GetUrls(doc, pageUrl, resolve) <==>
              exists i :: 0 <= i < |Elements(doc)| && Resolved(Elements(doc)[i], "a", "href", pageUrl, resolve) == Some(u)
    ensures |GetUrls(doc, pageUrl, resolve)| <= |QuerySelectorAll(doc, "a")|
    ensures GetImages(doc, pageUrl, resolve) == Collect(QuerySelectorAll(doc, "img"), "img", "src", pageUrl, resolve)
    ensures forall u :: u in GetImages(doc, pageUrl, resolve) <==>
              exists i :: 0 <= i < |Elements(doc)| && Resolved(Elements(doc)[i], "img", "src", pageUrl, resolve) == Some(u)
    ensures |GetImages(doc, pageUrl, resolve)| <= |QuerySelectorAll(doc, "img")|
  {
    CollectTagged(Elements(doc), "a", "href", pageUrl, resolve);
    assert QuerySelectorAll(doc, "a") == Tagged(Elements(doc), "a");
    CollectExactly(Elements(doc), "a", "href", pageUrl, resolve);
    CollectBound(Elements(doc), "a", "href", pageUrl, resolve);
    CollectTagged(Elements(doc), "img", "src", pageUrl, resolve);
    assert QuerySelectorAll(doc, "img") == Tagged(Elements(doc), "img");
    CollectExactly(Elements(doc), "img", "src", pageUrl, resolve);
    CollectBound(Elements(doc), "img", "src", pageUrl, resolve);
  }

  /** `extractPageData`: the page URL verbatim and the four extractors
      applied to the same document and base. */
  function ExtractPageData(doc: Document, pageUrl: string, resolve: Resolver): (r: PageData)
    ensures r.url == pageUrl
    // the heading: the first `h1`, trimmed, or nothing
    ensures NoneTagged(Elements(doc), "h1") ==> r.h1 == ""
    ensures forall i :: IsFirst(Elements(doc), "h1", i) ==> r.h1 == Trim(TextContent(Elements(doc)[i]))
    // the paragraph: the first `p` of the first `main`, else the first `p`, trimmed, or nothing
    ensures forall i, j :: IsFirst(Elements(doc), "main", i) && IsFirst(Elements(Elements(doc)[i].children), "p", j) ==>
              r.firstParagraph == Trim(TextContent(Elements(Elements(doc)[i].children)[j]))
    ensures NoneTagged(Elements(doc), "main") ==>
              forall k :: IsFirst(Elements(doc), "p", k) ==> r.firstParagraph == Trim(TextContent(Elements(doc)[k]))
    ensures forall i :: IsFirst(Elements(doc), "main", i) && NoneTagged(Elements(Elements(doc)[i].children), "p") ==>
              forall k :: IsFirst(Elements(doc), "p", k) ==> r.firstParagraph == Trim(TextContent(Elements(doc)[k]))
    ensures NoneTagged(Elements(doc), "p") ==> r.firstParagraph == ""
    // the links and images: exactly the resolvable non-empty attributes, at most one per element
    ensures forall u :: u in r.outgoingLinks <==>
              exists i :: 0 <= i < |Elements(doc)| && Resolved(Elements(doc)[i], "a", "href", pageUrl, resolve) == Some(u)
    ensures |r.outgoingLinks| <= |QuerySelectorAll(doc, "a")|
    ensures forall u :: u in r.imageUrls <==>
              exists i :: 0 <= i < |Elements(doc)| && Resolved(Elements(doc)[i], "img", "src", pageUrl, resolve) == Some(u)
    ensures |r.imageUrls| <= |QuerySelectorAll(doc, "img")|
  {
    CollectExactly(Elements(doc), "a", "href", pageUrl, resolve);
    CollectExactly(Elements(doc), "img", "src", pageUrl, resolve);
    CollectBound(Elements(doc), "a", "href", pageUrl, resolve);
    CollectBound(Elements(doc), "img", "src", pageUrl, resolve);
    PageData(pageUrl, GetH1(doc), GetFirstParagraph(doc), GetUrls(doc, pageUrl, resolve), GetImages(doc, pageUrl, resolve))
  }

  /** `CollectMembers` for every URL at once. */
  lemma CollectExactly(es: seq<Node>, tag: string, attr: string, base: string, resolve: Resolver)
    ensures forall u :: u in Collect(es, tag, attr, base, resolve) <==>
              exists i :: 0 <= i < |es| && Resolved(es[i], tag, attr, base, resolve) == Some(u)
  {
    forall u ensures u in Collect(es, tag, attr, base, resolve) <==>
                     exists i :: 0 <= i < |es| && Resolved(es[i], tag, attr, base, resolve) == Some(u)
    {
      CollectMembers(es, tag, attr, base, resolve, u);
    }
  }

  /** A page with no `h1`, `p`, `a` or `img` (an empty body) yields empty
      fields. */
  lemma EmptyPage(doc: Document, pageUrl: string, resolve: Resolver)
    requires NoneTagged(Elements(doc), "h1") && NoneTagged(Elements(doc), "p")
    requires NoneTagged(Elements(doc), "a") && NoneTagged(Elements(doc), "img")
    ensures ExtractPageData(doc, pageUrl, resolve) == PageData(pageUrl, "", "", [], [])
  {
    NothingTagged(Elements(doc), "a", "href", pageUrl, resolve);
    NothingTagged(Elements(doc), "img", "src", pageUrl, resolve);
  }

  lemma {:induction false} NothingTagged(es: seq<Node>, tag: string, attr: string, base: string, resolve: Resolver)
    requires NoneTagged(es, tag)
    ensures Collect(es, tag, attr, base, resolve) == []
    decreases es
  {
    if es != [] {
      assert !HasTag(es[0], tag);
      NothingTagged(es[1..], tag, attr, base, resolve);
    }
  }
}

=== FILE: fetch.dfy ===
/** The response filter of `getHTML` (src/crawler/crawl.ts:47-80). The
    request itself, the `User-Agent` header, the concurrency limiter and the
    abort signal belong to the transport and are not modelled: the transport
    is represented only by what `fetch` settles with and whether the body
    can then be read. */
module Fetch {
  import opened Wrappers
  import opened Text

  /** The parts of a `Response` that `getHTML` reads. */
  datatype Response = Response(status: int, contentType: Option<string>, body: string)

  /** `fetch` either rejects (network failure, or the abort signal fired)
      or resolves with a response. Reading the body with `res.text()` can
      still reject after that, when the abort lands or the connection
      breaks mid-body: `BodyFailed` is a response whose body cannot be
      read. */
  datatype FetchResult = Received(response: Response) | Rejected | BodyFailed(response: Response)

  /** How `getHTML` settles: with the body text, with `undefined`, or by
      throwing. */
  datatype GetResult = Html(text: string) | NoHtml | Failed

  /** A response is kept when its status is at most 399 and it has a
      non-empty content type that includes `text/html`. */
  function Accepts(status: int, contentType: Option<string>): (ok: bool)
    ensures ok <==> status <= 399 && contentType.Some?
                    && exists i :: OccursAt(contentType.value, "text/html", i)
  {
    if status > 399 then false
    else match contentType
      case None => false
      case Some(ct) => ct != "" && Contains(ct, "text/html")
  }

  /** `getHTML`: a rejected fetch is an error; a response that is not
      accepted is absent, not an error, and its body is never read; an
      accepted one yields its body, or is an error when reading the body
      fails. */
  function GetHtml(f: FetchResult): (r: GetResult)
    ensures r.Failed? <==> f.Rejected? || (f.BodyFailed? && Accepts(f.response.status, f.response.contentType))
    ensures r.Html? <==> f.Received? && Accepts(f.response.status, f.response.contentType)
    ensures r.Html? ==> r.text == f.response.body
    ensures r.NoHtml? <==> !f.Rejected? && !Accepts(f.response.status, f.response.contentType)
  {
    match f
    case Rejected => Failed
    case Received(res) =>
      if Accepts(res.status, res.contentType) then Html(res.body) else NoHtml
    case BodyFailed(res) =>
      if Accepts(res.status, res.contentType) then Failed else NoHtml
  }

  /** An error status is absent whatever its content type, and so is a
      missing or empty content type. */
  lemma RejectedResponses(status: int, contentType: Option<string>, body: string)
    ensures status >= 400 ==> GetHtml(Received(Response(status, contentType, body))) == NoHtml
    ensures contentType == None ==> GetHtml(Received(Response(status, contentType, body))) == NoHtml
    ensures contentType == Some("") ==> GetHtml(Received(Response(status, contentType, body))) == NoHtml
    ensures status == 200 && contentType == Some("text/html; charset=utf-8")
            ==> GetHtml(Received(Response(status, contentType, body))) == Html(body)
    ensures status == 200 && contentType == Some("text/html; charset=utf-8")
            ==> GetHtml(BodyFailed(Response(status, contentType, body))) == Failed
  {
    if contentType == Some("text/html; charset=utf-8") {
      assert OccursAt("text/html; charset=utf-8", "text/html", 0);
    }
  }
}

=== FILE: gate.dfy ===
/** `ConcurrentCrawler.addPageVisit` (src/crawler/crawl.ts:27-45). It has no
    `await`, so on the event loop each call is one atomic transition of the
    state it touches: the visited identities, the stop flag and the budget. */
module ClaimGate {

  datatype Gate = Gate(visited: set<string>, shouldStop: bool, maxPages: nat)

  /** The page budget is respected. */
  predicate Bounded(g: Gate) {
    |g.visited| <= g.maxPages
  }

  /** Tries to claim the identity `id`; returns whether it was claimed and
      the new gate. Setting the stop flag also aborts every fetch in flight,
      which the crawl engine accounts for. */
  function AddPageVisit(g: Gate, id: string): (r: (bool, Gate))
    ensures r.0 <==> !g.shouldStop && id !in g.visited && |g.visited| < g.maxPages
    ensures r.1.visited == if r.0 then g.visited + {id} else g.visited
    // only a new identity arriving at a full budget trips the stop
    ensures r.1.shouldStop <==> g.shouldStop || (id !in g.visited && |g.visited| >= g.maxPages)
    ensures r.1.maxPages == g.maxPages
    ensures Bounded(g) ==> Bounded(r.1)
    // once stopped, every claim is refused and changes nothing
    ensures g.shouldStop ==> r == (false, g)
  {
    if g.shouldStop then (false, g)
    else if id in g.visited then (false, g)
    else if |g.visited| >= g.maxPages then (false, g.(shouldStop := true))
    else (true, g.(visited := g.visited + {id}))
  }

  /** Offers the identities one after another, as a series of
      `addPageVisit` calls; returns the final gate and the identities that
      were claimed, in order. */
  function ClaimAll(g: Gate, ids: seq<string>): (r: (Gate, seq<string>))
    decreases |ids|
  {
    if ids == [] then (g, [])
    else
      var (ok, g1) := AddPageVisit(g, ids[0]);
      var (g2, rest) := ClaimAll(g1, ids[1..]);
      (g2, if ok then [ids[0]] + rest else rest)
  }

  function ToSet(xs: seq<string>): set<string> {
    set x | x in xs
  }

  predicate Distinct(xs: seq<string>) {
    forall i, j :: 0 <= i < j < |xs| ==> xs[i] != xs[j]
  }

  /** Whatever identities are offered, in whatever order, the budget holds
      and the stop flag never resets; once stopped, nothing is claimed and
      nothing changes. */
  lemma {:induction false} ClaimAllKeepsBudget(g: Gate, ids: seq<string>)
    requires Bounded(g)
    ensures var (g', claimed) := ClaimAll(g, ids);
            && Bounded(g') && g'.maxPages == g.maxPages
            && (g.shouldStop ==> g'.shouldStop)
            && (g.shouldStop ==> g' == g && claimed == [])
    decreases |ids|
  {
    if ids != [] {
      var (ok, g1) := AddPageVisit(g, ids[0]);
      ClaimAllKeepsBudget(g1, ids[1..]);
    }
  }

  /** No identity is claimed twice, nor claimed once visited; the visited
      set grows by exactly the claims, one element per claim. */
  lemma {:induction false} ClaimAllClaimsOnce(g: Gate, ids: seq<string>)
    ensures var (g', claimed) := ClaimAll(g, ids);
            && Distinct(claimed)
            && (forall i :: 0 <= i < |claimed| ==> claimed[i] !in g.visited && claimed[i] in ids)
            && g'.visited == g.visited + ToSet(claimed)
            && |g'.visited| == |g.visited| + |claimed|
    decreases |ids|
  {
    if ids != [] {
      var (ok, g1) := AddPageVisit(g, ids[0]);
      ClaimAllClaimsOnce(g1, ids[1..]);
      var (g2, rest) := ClaimAll(g1, ids[1..]);
      assert ClaimAll(g, ids) == (g2, if ok then [ids[0]] + rest else rest);
      PrependClaim(g.visited, ids[0], ok, g1.visited, ids[1..], rest, g2.visited);
      assert [ids[0]] + ids[1..] == ids;
    }
  }

  /** One step of `ClaimAllClaimsOnce`: prefixing the outcome of one claim. */
  lemma PrependClaim(v: set<string>, id: string, ok: bool, v1: set<string>,
                     ids: seq<string>, rest: seq<string>, v2: set<string>)
    requires ok ==> id !in v && v1 == v + {id}
    requires !ok ==> v1 == v
    requires Distinct(rest)
    requires forall i :: 0 <= i < |rest| ==> rest[i] !in v1 && rest[i] in ids
    requires v2 == v1 + ToSet(rest) && |v2| == |v1| + |rest|
    ensures var claimed := if ok then [id] + rest else rest;
            && Distinct(claimed)
            && (forall i :: 0 <= i < |claimed| ==> claimed[i] !in v && claimed[i] in [id] + ids)
            && v2 == v + ToSet(claimed)
            && |v2| == |v| + |claimed|
  {
    if ok {
      PrependDistinct(id, rest);
      PrependSet(id, rest);
    }
  }

  lemma PrependDistinct(id: string, rest: seq<string>)
    requires Distinct(rest) && id !in rest
    ensures Distinct([id] + rest)
  {
    var claimed := [id] + rest;
    forall i, j | 0 <= i < j < |claimed| ensures claimed[i] != claimed[j] {
      assert claimed[j] == rest[j - 1];
      if i > 0 { assert claimed[i] == rest[i - 1]; }
    }
  }

  lemma PrependSet(id: string, rest: seq<string>)
    ensures ToSet([id] + rest) == {id} + ToSet(rest)
  {
  }

  /** From a fresh gate, any sequence of claims stays within `maxPages`. */
  lemma FreshGate(maxPages: nat, ids: seq<string>)
    ensures |ClaimAll(Gate({}, false, maxPages), ids).1| <= maxPages
  {
    ClaimAllKeepsBudget(Gate({}, false, maxPages), ids);
    ClaimAllClaimsOnce(Gate({}, false, maxPages), ids);
  }
}

=== FILE: report.dfy ===
/** `writeCSVReport` (src/crawler/report.ts:13-44): a header line and one
    line per recorded page, in the order the pages were first recorded,
    every cell escaped with `csvEscape` and the lines joined with a line
    feed. The file system write is left out: the model is the text that
    would be written. */
module Report {
  import opened Wrappers
  import opened Text
  import opened Extract
  import opened Csv
  import opened ClaimGate
  import opened Engine

  const Header: seq<string> :=
    ["page_url", "h1", "first_paragraph", "outgoing_link_urls", "image_urls"]

  /** The five cells of a page's line before escaping; the link and image
      lists are joined with `;`. */
  function Row(p: PageData): seq<string> {
    [p.url, p.h1, p.firstParagraph, Join(p.outgoingLinks, ";"), Join(p.imageUrls, ";")]
  }

  function Rows(pages: seq<PageData>): (r: seq<seq<string>>)
    ensures |r| == |pages|
    ensures forall i :: 0 <= i < |r| ==> r[i] == Row(pages[i])
  {
    if pages == [] then [] else [Row(pages[0])] + Rows(pages[1..])
  }

  /** `Object.values(pageData)`: the records in key insertion order. */
  function Values(pages: map<string, PageData>, order: seq<string>): (r: seq<PageData>)
    requires forall i :: 0 <= i < |order| ==> order[i] in pages
    ensures |r| == |order|
    ensures forall i :: 0 <= i < |r| ==> r[i] == pages[order[i]]
  {
    seq(|order|, i requires 0 <= i < |order| => pages[order[i]])
  }

  /** The text `writeCSVReport` writes for a page record whose keys, in
      insertion order, are `order`; `None` is its early return when there
      is no key. The header line is joined without escaping. */
  function CsvText(pages: map<string, PageData>, order: seq<string>): (r: Option<string>)
    requires forall i :: 0 <= i < |order| ==> order[i] in pages
    requires forall k :: k in pages ==> k in order
    ensures r.None? <==> |pages| == 0
    ensures r.None? <==> order == []
  {
    if order == [] then None
    else Some(Join([Join(Header, ",")] + EncodeAll(Rows(Values(pages, order))), "\n"))
  }

  /** No header name needs quoting, so joining the header unescaped writes
      the same line as escaping it would. */
  lemma HeaderIsPlain()
    ensures EscapeAll(Header) == Header
    ensures Join(Header, ",") == EncodeRecord(Header)
  {
    NamesPlain();
    PlainFields(Header);
  }

  lemma NamesPlain()
    ensures forall i :: 0 <= i < |Header| ==> !NeedsQuoting(Header[i])
  {
    assert !NeedsQuoting("page_url");
    assert !NeedsQuoting("h1");
    assert !NeedsQuoting("first_paragraph");
    assert !NeedsQuoting("outgoing_link_urls");
    assert !NeedsQuoting("image_urls");
  }

  lemma {:induction false} PlainFields(fields: seq<string>)
    requires forall i :: 0 <= i < |fields| ==> !NeedsQuoting(fields[i])
    ensures EscapeAll(fields) == fields
    decreases |fields|
  {
    if fields != [] {
      PlainFields(fields[1..]);
      assert [fields[0]] + fields[1..] == fields;
    }
  }

  lemma EncodeAllPrepend(first: seq<string>, rest: seq<seq<string>>)
    ensures EncodeAll([first] + rest) == [EncodeRecord(first)] + EncodeAll(rest)
  {
    assert ([first] + rest)[1..] == rest;
  }

  /** Read back as CSV, the written text is the header followed by one
      five-cell line per record, in order: no cell's comma, quote or line
      feed can shift a cell or split a line. */
  lemma ReportParses(pages: map<string, PageData>, order: seq<string>)
    requires forall i :: 0 <= i < |order| ==> order[i] in pages
    requires forall k :: k in pages ==> k in order
    requires order != []
    ensures ParseRecords(CsvText(pages, order).value) == Some([Header] + Rows(Values(pages, order)))
  {
    TextEncodes(pages, order);
    var ps := Values(pages, order);
    RowsFive(ps);
    RowsParse(Rows(ps));
  }

  /** Every line after the header has five cells. */
  lemma RowsFive(ps: seq<PageData>)
    ensures forall i :: 0 <= i < |Rows(ps)| ==> |Rows(ps)[i]| == 5
  {
  }

  /** The written text is the encoding of the header and the rows. */
  lemma TextEncodes(pages: map<string, PageData>, order: seq<string>)
    requires forall i :: 0 <= i < |order| ==> order[i] in pages
    requires forall k :: k in pages ==> k in order
    requires order != []
    ensures CsvText(pages, order).value == EncodeRecords([Header] + Rows(Values(pages, order)))
  {
    HeaderIsPlain();
    EncodeAllPrepend(Header, Rows(Values(pages, order)));
  }

  lemma RowsParse(rows: seq<seq<string>>)
    requires forall i :: 0 <= i < |rows| ==> |rows[i]| == 5
    ensures ParseRecords(EncodeRecords([Header] + rows)) == Some([Header] + rows)
  {
    var records := [Header] + rows;
    forall i | 0 <= i < |records| ensures |records[i]| > 0 {
      if i > 0 { assert records[i] == rows[i - 1]; }
    }
    RecordsRoundTrip(records);
  }

  /** Distinct keys: as many as the positions that list them. */
  lemma {:induction false} DistinctCount(xs: seq<string>)
    requires Distinct(xs)
    ensures |ToSet(xs)| == |xs|
    decreases |xs|
  {
    if xs != [] {
      var rest := xs[1..];
      assert Distinct(rest) by {
        forall i, j | 0 <= i < j < |rest| ensures rest[i] != rest[j] {
          assert rest[i] == xs[i + 1] && rest[j] == xs[j + 1];
        }
      }
      DistinctCount(rest);
      assert xs[0] !in rest by {
        forall j | 0 <= j < |rest| ensures rest[j] != xs[0] {
          assert rest[j] == xs[j + 1];
        }
      }
      assert xs == [xs[0]] + rest;
      PrependSet(xs[0], rest);
    }
  }

  /** A duplicate-free key list that lists exactly the keys of a record
      is as long as the record has keys. */
  lemma KeyListCount(pages: map<string, PageData>, order: seq<string>)
    requires Distinct(order)
    requires forall i :: 0 <= i < |order| ==> order[i] in pages
    requires forall k :: k in pages ==> k in order
    ensures |order| == |pages|
  {
    assert ToSet(order) == pages.Keys;
    DistinctCount(order);
  }

  /** Every page of the record has a line of its own in the report. */
  lemma EveryPageListed(pages: map<string, PageData>, order: seq<string>)
    requires Distinct(order)
    requires forall i :: 0 <= i < |order| ==> order[i] in pages
    requires forall k :: k in pages ==> k in order
    requires order != []
    ensures var records := ParseRecords(CsvText(pages, order).value);
            && records.Some?
            && |records.value| == |pages| + 1
            && records.value[0] == Header
            && (forall k :: k in pages ==>
                  exists i :: 1 <= i < |records.value| && records.value[i] == Row(pages[k]))
  {
    KeyListCount(pages, order);
    ReportParses(pages, order);
    PagesHaveLines(pages, order, ParseRecords(CsvText(pages, order).value).value);
  }

  lemma PagesHaveLines(pages: map<string, PageData>, order: seq<string>, records: seq<seq<string>>)
    requires forall i :: 0 <= i < |order| ==> order[i] in pages
    requires forall k :: k in pages ==> k in order
    requires records == [Header] + Rows(Values(pages, order))
    ensures forall k :: k in pages ==>
              exists i :: 1 <= i < |records| && records[i] == Row(pages[k])
  {
    forall k | k in pages
      ensures exists i :: 1 <= i < |records| && records[i] == Row(pages[k])
    {
      var j :| 0 <= j < |order| && order[j] == k;
      assert records[j + 1] == Row(pages[k]);
    }
  }

  /** The report of a crawl, at any point of any interleaving: nothing is
      written when no page was recorded; otherwise the text reads back as
      the header and one line per recorded page, every recorded page on a
      line of its own, so at most `maxPages` lines follow the header. */
  lemma CrawlReport(site: Site, maxPages: nat, events: seq<Event>)
    ensures var r := Run(site, Start(site, maxPages), events);
            && (forall i :: 0 <= i < |r.order| ==> r.order[i] in r.pages)
            && (forall k :: k in r.pages ==> k in r.order)
            && |r.order| == |r.pages|
            && (CsvText(r.pages, r.order).None? <==> |r.pages| == 0)
            && (r.order != [] ==>
                  var records := ParseRecords(CsvText(r.pages, r.order).value);
                  && records.Some?
                  && |records.value| == |r.pages| + 1 <= maxPages + 1
                  && records.value[0] == Header
                  && (forall k :: k in r.pages ==>
                        exists i :: 1 <= i < |records.value| && records.value[i] == Row(r.pages[k])))
  {
    StartInv(site, maxPages);
    var s0 := Start(site, maxPages);
    RunInv(site, s0, events);
    CrawlGuarantees(site, maxPages, events);
    var r := Run(site, s0, events);
    assert OrderListsPages(r);
    KeyListCount(r.pages, r.order);
    if r.order != [] {
      EveryPageListed(r.pages, r.order);
    }
  }
}

=== FILE: text.dfy ===
/** String helpers with the exact semantics of the JavaScript built-ins the
    crawler uses: `String.prototype.trim`, `String.prototype.includes` and
    `Array.prototype.join`. */
module Text {

  /** ECMAScript WhiteSpace and LineTerminator code points: the characters
      `trim` removes (ECMA-262, sections 12.2 and 12.3). */
  predicate IsWhitespace(c: char) {
    || c == '\t' || c == '\n' || c == '\U{000B}' || c == '\U{000C}' || c == '\r'
    || c == ' ' || c == '\U{00A0}' || c == '\U{1680}'
    || ('\U{2000}' <= c <= '\U{200A}')
    || c == '\U{2028}' || c == '\U{2029}' || c == '\U{202F}' || c == '\U{205F}'
    || c == '\U{3000}' || c == '\U{FEFF}'
  }

  predicate AllWhitespace(s: string) {
    forall i :: 0 <= i < |s| ==> IsWhitespace(s[i])
  }

  /** Neither end of `s` is whitespace. */
  predicate IsTrimmed(s: string) {
    s == [] || (!IsWhitespace(s[0]) && !IsWhitespace(s[|s| - 1]))
  }

  /** Drops the leading whitespace. */
  function TrimStart(s: string): (r: string)
    ensures |r| <= |s| && r == s[|s| - |r|..]
    ensures AllWhitespace(s[..|s| - |r|])
    ensures r == [] || !IsWhitespace(r[0])
  {
    if s == [] || !IsWhitespace(s[0]) then s else TrimStart(s[1..])
  }

  /** Drops the trailing whitespace. */
  function TrimEnd(s: string): (r: string)
    ensures |r| <= |s| && r == s[..|r|]
    ensures AllWhitespace(s[|r|..])
    ensures r == [] || !IsWhitespace(r[|r| - 1])
  {
    if s == [] || !IsWhitespace(s[|s| - 1]) then s else TrimEnd(s[..|s| - 1])
  }

  /** `r` is `s` with a whitespace-only prefix of length `i` and a
      whitespace-only suffix removed. */
  predicate StripsTo(s: string, r: string, i: int) {
    && 0 <= i <= |s| - |r|
    && r == s[i..i + |r|]
    && AllWhitespace(s[..i])
    && AllWhitespace(s[i + |r|..])
  }

  /** `String.prototype.trim`: the infix of `s` left after removing its
      leading and trailing whitespace. */
  function Trim(s: string): (r: string)
    ensures IsTrimmed(r)
    ensures exists i :: StripsTo(s, r, i)
    ensures r == [] <==> AllWhitespace(s)
  {
    var t := TrimStart(s);
    var r := TrimEnd(t);
    StripBothEnds(s, t, r);
    r
  }

  /** Removing a whitespace prefix and then a whitespace suffix strips `s`
      to `r`, and leaves nothing exactly when `s` is all whitespace. */
  lemma StripBothEnds(s: string, t: string, r: string)
    requires |t| <= |s| && t == s[|s| - |t|..] && AllWhitespace(s[..|s| - |t|])
    requires t == [] || !IsWhitespace(t[0])
    requires |r| <= |t| && r == t[..|r|] && AllWhitespace(t[|r|..])
    ensures StripsTo(s, r, |s| - |t|)
    ensures r == [] <==> AllWhitespace(s)
  {
    var i := |s| - |t|;
    PrefixOfSuffix(s, t, r);
    if r != [] {
      assert r[0] == s[i];
    } else {
      AllWhitespaceConcat(s[..i], t);
    }
  }

  /** Index bookkeeping for a prefix `r` of a suffix `t` of `s`. */
  lemma PrefixOfSuffix(s: string, t: string, r: string)
    requires |t| <= |s| && t == s[|s| - |t|..]
    requires |r| <= |t| && r == t[..|r|]
    ensures r == s[|s| - |t|..|s| - |t| + |r|]
    ensures s[|s| - |t| + |r|..] == t[|r|..]
    ensures s == s[..|s| - |t|] + t
  {
  }

  lemma AllWhitespaceConcat(a: string, b: string)
    requires AllWhitespace(a) && AllWhitespace(b)
    ensures AllWhitespace(a + b)
  {
    forall k | 0 <= k < |a + b| ensures IsWhitespace((a + b)[k]) {
      if k < |a| { assert (a + b)[k] == a[k]; }
      else { assert (a + b)[k] == b[k - |a|]; }
    }
  }

  /** `s.startsWith(prefix)`. */
  predicate StartsWith(s: string, prefix: string) {
    |prefix| <= |s| && s[..|prefix|] == prefix
  }

  /** `sub` occurs in `s` at offset `i`. */
  predicate OccursAt(s: string, sub: string, i: int) {
    0 <= i && i + |sub| <= |s| && s[i..i + |sub|] == sub
  }

  /** `s.includes(sub)`: `sub` occurs somewhere in `s`. */
  function Contains(s: string, sub: string): (r: bool)
    ensures r <==> exists i :: OccursAt(s, sub, i)
  {
    if StartsWith(s, sub) then
      assert OccursAt(s, sub, 0);
      true
    else if s == [] then
      assert forall i :: !OccursAt(s, sub, i);
      false
    else
      var r := Contains(s[1..], sub);
      ContainsShift(s, sub);
      r
  }

  lemma ContainsShift(s: string, sub: string)
    requires s != [] && !StartsWith(s, sub)
    ensures (exists i :: OccursAt(s, sub, i)) <==> (exists j :: OccursAt(s[1..], sub, j))
  {
    if exists j :: OccursAt(s[1..], sub, j) {
      var j :| OccursAt(s[1..], sub, j);
      assert s[j + 1..j + 1 + |sub|] == s[1..][j..j + |sub|];
      assert OccursAt(s, sub, j + 1);
    }
    if exists i :: OccursAt(s, sub, i) {
      var i :| OccursAt(s, sub, i);
      assert i != 0;
      assert s[1..][i - 1..i - 1 + |sub|] == s[i..i + |sub|];
      assert OccursAt(s[1..], sub, i - 1);
    }
  }

  /** `Array.prototype.join(sep)` on an array of strings. */
  function Join(xs: seq<string>, sep: string): string {
    if |xs| == 0 then ""
    else if |xs| == 1 then xs[0]
    else xs[0] + sep + Join(xs[1..], sep)
  }

  /** `String.prototype.split(c)` for a one-character separator: the
      pieces between the occurrences of `c`, one more than there are
      occurrences. */
  function Split(s: string, c: char): (r: seq<string>)
    ensures |r| > 0
    decreases |s|
  {
    if s == [] then [""]
    else
      var rest := Split(s[1..], c);
      if s[0] == c then [""] + rest else [[s[0]] + rest[0]] + rest[1..]
  }

  /** Joining pieces that do not contain the separator character can be
      undone by splitting on it: `join` loses nothing. */
  lemma {:induction false} JoinSplit(xs: seq<string>, c: char)
    requires |xs| > 0
    requires forall i :: 0 <= i < |xs| ==> c !in xs[i]
    ensures Split(Join(xs, [c]), c) == xs
    decreases |xs|
  {
    if |xs| == 1 {
      SplitPlain(xs[0], c);
    } else {
      JoinSplit(xs[1..], c);
      SplitAfter(xs[0], c, Join(xs[1..], [c]));
      assert [xs[0]] + xs[1..] == xs;
    }
  }

  lemma {:induction false} SplitPlain(s: string, c: char)
    requires c !in s
    ensures Split(s, c) == [s]
    decreases |s|
  {
    if s != [] {
      SplitPlain(s[1..], c);
      assert [s[0]] + s[1..] == s;
    }
  }

  lemma {:induction false} SplitAfter(a: string, c: char, t: string)
    requires c !in a
    ensures Split(a + [c] + t, c) == [a] + Split(t, c)
    decreases |a|
  {
    if a == [] {
      assert a + [c] + t == [c] + t;
      assert ([c] + t)[1..] == t;
    } else {
      SplitAfter(a[1..], c, t);
      assert (a + [c] + t)[1..] == a[1..] + [c] + t;
      assert [a[0]] + a[1..] == a;
    }
  }
}

=== FILE: url.dfy ===
/** Page identity: `normalizeURL` (src/crawler/crawl.ts:152-162, repeated
    verbatim in src/crawl.ts:3-13).

    The WHATWG URL parser behind `new URL(...)` is not modelled; a parsed URL
    is the record of the components it exposes. For the http and https
    schemes the parser lowercases the host (`HostFromInput` below), never puts
    a `/` into `hostname`, and always produces a `pathname` that starts with
    `/` (`WellFormed`). */
module Url {

  datatype ParsedUrl = ParsedUrl(
    scheme: string,
    host: string,      // `hostname`: no port, lowercased by the parser
    port: string,
    path: string,      // `pathname`
    query: string,     // `search`
    fragment: string)  // `hash`

  predicate EndsWithSlash(p: string) {
    |p| > 0 && p[|p| - 1] == '/'
  }

  /** The path with exactly one trailing `/` removed, if it has one. */
  function DropTrailingSlash(p: string): (r: string)
    ensures EndsWithSlash(p) ==> r + "/" == p
    ensures !EndsWithSlash(p) ==> r == p
  {
    if EndsWithSlash(p) then p[..|p| - 1] else p
  }

  /** `normalizeURL`: hostname followed by pathname, less one trailing `/`.
      Scheme, port, query and fragment play no part. */
  function Normalize(u: ParsedUrl): (r: string)
    ensures r <= u.host + u.path
    ensures |r| == |u.host| + |u.path| - (if EndsWithSlash(u.path) then 1 else 0)
  {
    u.host + DropTrailingSlash(u.path)
  }

  /** What the parser guarantees of an http(s) URL. */
  predicate WellFormed(u: ParsedUrl) {
    && '/' !in u.host
    && |u.path| > 0 && u.path[0] == '/'
  }

  /** Only host and path matter: components the normalizer ignores can be
      changed freely. */
  lemma IgnoresOtherComponents(u: ParsedUrl, scheme: string, port: string, query: string, fragment: string)
    ensures Normalize(u.(scheme := scheme, port := port, query := query, fragment := fragment)) == Normalize(u)
  {
  }

  /** One trailing slash is insignificant, and it is the only one: adding a
      `/` leaves the identity unchanged exactly when the path did not
      already end in `/`. */
  lemma TrailingSlash(u: ParsedUrl)
    ensures Normalize(u.(path := u.path + "/")) == Normalize(u) <==> !EndsWithSlash(u.path)
  {
    var v := u.(path := u.path + "/");
    assert DropTrailingSlash(v.path) == u.path;
    if EndsWithSlash(u.path) {
      assert |Normalize(v)| != |Normalize(u)|;
    }
  }

  /** Two well-formed URLs name the same page exactly when they have the
      same host and the same path up to one trailing slash. */
  lemma SamePage(u: ParsedUrl, v: ParsedUrl)
    requires WellFormed(u) && WellFormed(v)
    ensures Normalize(u) == Normalize(v)
            <==> u.host == v.host && DropTrailingSlash(u.path) == DropTrailingSlash(v.path)
  {
    var p, q := DropTrailingSlash(u.path), DropTrailingSlash(v.path);
    assert Normalize(u) == u.host + p;
    assert Normalize(v) == v.host + q;
    if u.host + p == v.host + q {
      PathKeepsLeadingSlash(u.path);
      PathKeepsLeadingSlash(v.path);
      SplitAtHost(u.host, p, v.host, q);
    }
  }

  lemma PathKeepsLeadingSlash(path: string)
    requires |path| > 0 && path[0] == '/'
    ensures var p := DropTrailingSlash(path); p == [] || p[0] == '/'
  {
  }

  /** A slash-free host followed by a path that is empty or starts with `/`
      can be split back into host and path in only one way. */
  lemma SplitAtHost(h1: string, p1: string, h2: string, p2: string)
    requires '/' !in h1 && '/' !in h2
    requires p1 == [] || p1[0] == '/'
    requires p2 == [] || p2[0] == '/'
    requires h1 + p1 == h2 + p2
    ensures h1 == h2 && p1 == p2
  {
    var w := h1 + p1;
    assert h1 == w[..|h1|];
    assert h2 == w[..|h2|];
  }

  function LowerChar(c: char): char {
    if 'A' <= c <= 'Z' then (c as int + 32) as char else c
  }

  /** The parser's host canonicalisation for ASCII domain names: ASCII
      letters are lowercased, nothing else changes. IP literals, which the
      parser rewrites, are not covered. */
  function HostFromInput(raw: string): (h: string)
    ensures |h| == |raw|
    ensures forall i :: 0 <= i < |h| ==> h[i] == LowerChar(raw[i])
    ensures forall i :: 0 <= i < |h| ==> !('A' <= h[i] <= 'Z')
  {
    seq(|raw|, i requires 0 <= i < |raw| => LowerChar(raw[i]))
  }

  predicate EqualIgnoringCase(a: string, b: string) {
    |a| == |b| && forall i :: 0 <= i < |a| ==> LowerChar(a[i]) == LowerChar(b[i])
  }

  /** URLs whose hosts were typed in different letter case, with different
      schemes, or with and without one trailing slash are the same page. */
  lemma SameIdentity(a: ParsedUrl, rawA: string, b: ParsedUrl, rawB: string)
    requires a.host == HostFromInput(rawA) && b.host == HostFromInput(rawB)
    requires EqualIgnoringCase(rawA, rawB)
    requires || a.path == b.path
             || (a.path == b.path + "/" && !EndsWithSlash(b.path))
             || (b.path == a.path + "/" && !EndsWithSlash(a.path))
    ensures Normalize(a) == Normalize(b)
  {
    assert a.host == b.host;
    if a.path == b.path + "/" {
      assert DropTrailingSlash(a.path) == b.path;
    } else if b.path == a.path + "/" {
      assert DropTrailingSlash(b.path) == a.path;
    }
  }

  /** The cases the test suite pins down (src/crawler/crawl.test.ts:12-38). */
  lemma BootDevExamples()
    ensures Normalize(ParsedUrl("https", HostFromInput("blog.boot.dev"), "", "/path", "", "")) == "blog.boot.dev/path"
    ensures Normalize(ParsedUrl("https", HostFromInput("blog.boot.dev"), "", "/path/", "", "")) == "blog.boot.dev/path"
    ensures Normalize(ParsedUrl("https", HostFromInput("BLOG.boot.dev"), "", "/path", "", "")) == "blog.boot.dev/path"
    ensures Normalize(ParsedUrl("http", HostFromInput("BLOG.boot.dev"), "", "/path", "", "")) == "blog.boot.dev/path"
  {
    assert HostFromInput("BLOG.boot.dev") == "blog.boot.dev";
    assert HostFromInput("blog.boot.dev") == "blog.boot.dev";
  }
}

=== FILE: wrappers.dfy ===
/** The optional value used wherever the source has `null`, `undefined` or a
    caught exception that is turned into "nothing". */
module Wrappers {

  datatype Option<+T> = None | Some(value: T)
}
